=== FILE: README.md ===
# kfclient protocol core in Dafny

kfclient is a C++ client for Valve's Source Engine server query protocol
(the A2S_INFO, A2S_PLAYER and A2S_RULES queries and the S2C_CHALLENGE
reply). This project models its protocol engine as pure functions and
proves properties of them:

- **`KfBuffer`** (`kfbuffer.dfy`): the bounds-checked read head
  `kfbuffer`. A cursor is an immutable `(buf, pos)` with `pos <= |buf|`.
  Every `seek`, `rewind` and `consume` returns the value it read together
  with the new cursor, or the `std::range_error` it throws. The module
  also models the variadic `consume`, which has no rollback.
- **`Bytes`**, **`Wrappers`**: byte sequences, little-endian integers,
  two's complement, `Option`/`Result`, and the error kinds.
- **`Conversions`** (`conversions.dfy`): `std::stol` (skip whitespace,
  sign, digits, `long` range) and the result that `strtod` reports.
- **`Additional`** (`additional.dfy`): the two-state `key:value,` scanner
  over the details reply's additional string. It comes with an independent
  segment-by-segment reading of the same grammar, and a proof that the two
  agree.
- **`KfDetails`** (`kfdetails.dfy`): the `kfdetails` constructor. It
  covers the fixed field order, then the scanner, then the wave counters
  from keys `"d"` and `"e"`.
- **`KfRules`** (`kfrules.dfy`): the `kfrule` value classification
  (Bool, then Number, then Text) and the count-driven `kfrules` list.
- **`KfPlayers`** (`kfplayers.dfy`): the `kfplayer` entry and the
  count-driven `kfplayers` roster.
- **`Counted`** (`counted.dfy`): the count-driven list shared by rules and
  players. An entry that throws ends the whole list.
- **`KfClient`** (`kfclient.dfy`) covers the client side:
  - the packet tags, the `REQUEST_*` payloads and the 2048-byte receive
    capacity;
  - `process_response`: rewind, header, magic check, tag check, dispatch;
  - `do_challenge`;
  - the `request_*` slot guards.

  The client's state is a `Session` value: the receive buffer, the
  challenge and the three record slots.

Every decoder has an encoder as its partner. Each decoder, and the reply
datagram as a whole, has two proved directions:
- a round trip: a well-formed value, encoded, is read back and exactly its
  bytes are consumed;
- the converse: whatever the decoder accepts sat in the buffer as exactly
  the encoding of the value it returned. For a details reply, the password
  byte is taken as found, because any nonzero byte reads as "set".

Native byte order is taken as little-endian, `char` is signed, and `long`
is 64 bits (LP64).

A latent issue in `process_response` is made visible. The received byte
count is discarded, so the decoders read the whole 2048-byte buffer, and
any bytes after a short datagram are left over from earlier replies.
`KfClientProofs.StaleChallengeAccepted` shows the effect: a datagram that
holds only the 5-byte challenge header is accepted, and it yields the
challenge of the previous reply.

## Model

| member | source | states |
|---|---|---|
| KfBuffer.Seek | kfclient/kfbuffer.hpp:44-63 | A seek succeeds exactly when the target is within `[0, size]`, and then the position is the target. From `beg` the target is the offset, from `cur` it is the position plus the offset, and from `end` it is the size minus the offset. A failed seek gives no cursor, so the position is unchanged. |
| KfBuffer.SeekFromEnd | kfclient/kfbuffer.hpp:54-55 | Seeking from the end by `offset` is seeking to `size - offset` from the beginning, so a negative offset always fails. |
| KfBuffer.SeekCurrentZero | kfclient/kfbuffer.hpp:51-52 | `seek(0, cur)` leaves the cursor where it was. |
| KfBuffer.RewindIsSeekToStart | kfclient/kfbuffer.hpp:40-42 | `rewind` is the seek to position 0 and keeps the buffer. |
| KfBuffer.Consume | kfclient/kfbuffer.hpp:65-70 | `consume<T>` succeeds exactly when `sizeof T` bytes remain. It returns the bytes `[pos, pos + sizeof T)` and advances by exactly `sizeof T`. |
| KfBuffer.ConsumeUnsigned | kfclient/kfbuffer.hpp:65-70 | An unsigned read fails exactly when too few bytes remain, always with the range error. Its value is below `256^width`, and it advances by the width. |
| KfBuffer.ConsumeInt32 | kfclient/kfbuffer.hpp:65-70 | `consume<std::int32_t>` yields a value in `[-2^31, 2^31)` and advances by 4; it fails exactly when fewer than 4 bytes remain. |
| KfBuffer.ConsumeChar | kfclient/kfbuffer.hpp:14-17 | The header's `char` type byte is read as a signed value in `[-128, 128)`. |
| KfBuffer.ConsumeBool | kfclient/kfbuffer.hpp:72-75 | `consume_cast<std::uint8_t>` into `bool` is true exactly when the byte at the position is non-zero, and advances by one byte. |
| KfBuffer.ConsumeString | kfclient/kfbuffer.hpp:89-93 | `consume_string(n)` succeeds exactly when `n <= size - pos`. It returns exactly the `n` bytes at the position and advances by `n`. |
| KfBuffer.FindNul | kfclient/kfbuffer.hpp:79-84 | The scan finds the first NUL at or after the position, with no NUL before it; when there is none, the rest of the buffer is NUL-free. |
| KfBuffer.ConsumeStringNull | kfclient/kfbuffer.hpp:77-87 | `consume_string_null` fails exactly when no NUL is left after the position. Otherwise it returns the NUL-free bytes before the first NUL and advances past that NUL. |
| KfBuffer.ConsumeCStringEncoded | kfclient/kfbuffer.hpp:77-87 | Round trip: a NUL-free string followed by its terminator reads back, and the terminator is consumed. |
| KfBuffer.ConsumeStringNullBytes | kfclient/kfbuffer.hpp:77-87 | The converse: whatever it returns sat in the buffer followed by a NUL. |
| KfBuffer.ConsumeStringEncoded | kfclient/kfbuffer.hpp:89-93 | Any `n` bytes, NULs included, read back through `consume_string(n)`. |
| KfBuffer.ConsumeUnsignedEncoded | kfclient/kfbuffer.hpp:65-70 | Round trip for unsigned reads: the little-endian encoding of a value of the type reads back, and exactly its width is consumed. |
| KfBuffer.ConsumeUnsignedBytes | kfclient/kfbuffer.hpp:65-70 | The converse: any value read sat in the buffer as exactly its encoding. |
| KfBuffer.ConsumeInt32Encoded | kfclient/kfbuffer.hpp:65-70 | Round trip for `std::int32_t`: every value of the type reads back from its two's-complement bytes. |
| KfBuffer.ConsumeInt32Bytes | kfclient/kfbuffer.hpp:65-70 | The converse for `std::int32_t`. |
| KfBuffer.ConsumeCharEncoded | kfclient/kfbuffer.hpp:14-17 | Round trip for the signed `char`. |
| KfBuffer.ConsumeCharBytes | kfclient/kfbuffer.hpp:14-17 | The converse for the signed `char`: the value read sat in the buffer as its one two's-complement byte. |
| KfBuffer.ConsumeEach | kfclient/kfbuffer.hpp:100-103 | The variadic `consume` reads its fields left to right and stops at the first that does not fit. At most one value per field is read, and the fold completes exactly when all were read; a failure is the range error. |
| KfBuffer.ConsumeEachPosition | kfclient/kfbuffer.hpp:100-103 | After the fold, the position is past exactly the fields read. When it threw, the next field did not fit at that position. |
| KfBuffer.ConsumeEachPrefix | kfclient/kfbuffer.hpp:100-103 | What was assigned before a throw is exactly what a complete variadic `consume` of the earlier fields reads, with the same final position. |
| KfBuffer.ConsumeEachValues | kfclient/kfbuffer.hpp:100-103 | Each value the fold assigns is the field read at the running position: field `i` is the little-endian value of the `widths[i]` bytes past the fields before it. |
| KfBuffer.NoRollback | kfclient/kfbuffer.hpp:100-103 | No rollback: when a later field throws, the cursor stays past the fields already read, and not at the start. |
| Bytes.LittleEndianInverse | kfclient/kfbuffer.hpp:69 | Reading bytes as a little-endian integer and writing that integer back gives the same bytes. |
| Bytes.LittleEndianOfEncoding | kfclient/kfbuffer.hpp:69 | Writing a value of the width and reading it back gives the value. |
| Bytes.MinusOneIsAllOnes | kfclient/kfclient.cpp:68-69 | Four bytes read as `std::int32_t` are -1 exactly when all four are 0xFF, and this holds in either byte order. |
| Bytes.NarrowToInt32 | kfclient/kfdetails.hpp:39-40 | Narrowing to `std::int32_t` keeps the value modulo 2^32, lands in `[-2^31, 2^31)`, and is the identity on values of the type. |
| Conversions.Stol | kfclient/kfdetails.cpp:36-39 | `std::stol` throws `invalid_argument` exactly when, after whitespace and one sign, no digit follows. Otherwise it yields a `long` or throws `out_of_range`. |
| Conversions.StolOfDecimal | kfclient/kfdetails.cpp:36-39 | `stol` reads back any `long` written in decimal and takes only the numeric prefix: a following non-digit is ignored. |
| Conversions.StolSkipsSpaces | kfclient/kfdetails.cpp:36-39 | Leading whitespace does not change what `stol` returns. |
| Conversions.DecimalStrtod | kfclient/kfrules.cpp:17-19 | A decimal-only `strtod`: it converts a prefix that holds a digit, or nothing, and never reports `HUGE_VAL`. It gives the classification examples a concrete converter. |
| Additional.Scan | kfclient/kfdetails.cpp:13-34 | The two-mode scanner. It stops at the end or at a NUL, and it never loses a committed key. No ':' or ',' ever reaches a key or a value. |
| Additional.Parse | kfclient/kfdetails.cpp:13-34 | No key or value of the map built from the additional string contains ':' or ','. |
| Additional.ScanMatchesSegments | kfclient/kfdetails.cpp:18-34 | The scanner agrees with the independent segment-by-segment reading, from any point of the text. |
| Additional.ParseIsCommit | kfclient/kfdetails.cpp:18-34 | The map is the comma-terminated segments committed in order. Each segment gives its key (up to the first ':') and its value (after it, with colons dropped). |
| Additional.CommaCommitsPair | kfclient/kfdetails.cpp:19-23 | Each ',' commits the pair read since the previous one, and a later duplicate key overwrites the earlier value. |
| Additional.UnterminatedPairDropped | kfclient/kfdetails.cpp:18-34 | A final pair with no ',' after it is never committed. |
| Additional.CommitAppend | kfclient/kfdetails.cpp:19-23 | Committing two runs of segments is committing the first, then the second. |
| KfDetails.ReadFront | kfclient/kfdetails.cpp:4-7 | The protocol byte, four C strings, the u16 app id, five bytes and the password byte are read in order. The result is well-formed, and the cursor advances by exactly their size. |
| KfDetails.ReadBack | kfclient/kfdetails.cpp:8-11 | `unknown3`, the fixed 4-byte version, three u32 fields and the additional string are read in order, advancing by exactly their size. |
| KfDetails.ReadFields | kfclient/kfdetails.cpp:3-11 | The eight reads give a well-formed record with the map empty and both counters at 0. Any failure is the range error. |
| KfDetails.WaveCounter | kfclient/kfdetails.cpp:36-39 | A wave counter is 0 when its key is absent. Otherwise it is `stol` of the value narrowed to `std::int32_t`, and it fails exactly when `stol` throws, with that exception. |
| KfDetails.DecodeDetails | kfclient/kfdetails.cpp:3-39 | A read failure is the range error. Otherwise the constructor succeeds exactly when both wave conversions do, and then the map and counters agree with the additional string. A failed conversion throws the exception of `stol`, from `"d"` when both fail, since `"d"` is converted first. |
| KfDetailsProofs.NamesRoundTrip | kfclient/kfdetails.cpp:5 | The four NUL-free names read back in order. |
| KfDetailsProofs.CountsRoundTrip | kfclient/kfdetails.cpp:6 | The u16 app id and the five byte fields read back. |
| KfDetailsProofs.UnknownsRoundTrip | kfclient/kfdetails.cpp:10 | The three u32 fields read back. |
| KfDetailsProofs.BackRoundTrip | kfclient/kfdetails.cpp:8-11 | The last four reads return the fields a server wrote. |
| KfDetailsProofs.ReadFieldsRoundTrip | kfclient/kfdetails.cpp:4-11 | Round trip for the field reads, with any non-zero password byte. |
| KfDetailsProofs.DetailsRoundTrip | kfclient/kfdetails.cpp:3-39 | Round trip for the constructor: a well-formed record whose map and counters agree with its additional string is decoded back whole from its bytes. |
| KfDetailsProofs.ReadFieldsBytes | kfclient/kfdetails.cpp:4-11 | The converse: whatever record the reads return sat in the buffer as exactly its encoding, with the password byte as found. |
| KfDetailsProofs.DetailsBytes | kfclient/kfdetails.cpp:3-39 | The converse for the constructor. `password_set` is true exactly when its wire byte is non-zero. |
| KfDetailsProofs.AdditionalExamples | kfclient/kfdetails.cpp:18-34 | `"d:3,e:1,"` gives both pairs; `"d:3,e:1"` gives only `d`. |
| KfDetailsProofs.WaveExamples | kfclient/kfdetails.cpp:36-39 | With both pairs the counters are 3 and 1. With `e` absent, `waves_current` stays 0. |
| KfRules.Classify | kfclient/kfrules.cpp:10-25 | Exactly one branch applies. Exact `"True"`/`"False"` is Bool and is checked first; a full, finite `strtod` conversion is Number; anything else is Text. The raw text is kept, and the empty value is Text. |
| KfRules.ClassifyInverse | kfclient/kfrules.cpp:10-25 | Classifying the raw text of any correctly classified value gives that value back. |
| KfRulesProofs.FractionIsNumber | kfclient/kfrules.cpp:16-21 | With a decimal `strtod`, "12.5" is converted whole and becomes a Number. |
| KfRulesProofs.LeadingZerosAreNumber | kfclient/kfrules.cpp:16-21 | "007" is converted whole and becomes a Number. |
| KfRulesProofs.NumericPrefixIsText | kfclient/kfrules.cpp:16-25 | "12abc" is converted only up to "12", so the end is not the NUL, and it stays Text. |
| KfRulesProofs.WordIsText | kfclient/kfrules.cpp:16-25 | "abc" converts nothing, so it stays Text. |
| KfRules.DecodeEntry | kfclient/kfrules.cpp:7-8 | A rule consumes exactly two C strings, the name and then the raw value. |
| KfRules.DecodeRule | kfclient/kfrules.cpp:6-26 | A decoded rule is well-formed and consumes exactly its encoding. |
| KfRules.RuleList | kfclient/kfrules.cpp:31-32 | `count` rules are read in wire order; any failure is the range error. |
| KfRules.DecodeRules | kfclient/kfrules.cpp:28-33 | A decoded rule set has a u16 count equal to its number of rules, each well-formed. |
| KfRulesProofs.EntryRoundTrip | kfclient/kfrules.cpp:7-8 | The name and the raw value read back. |
| KfRulesProofs.RuleBytes | kfclient/kfrules.cpp:6-8 | The converse for one rule: whatever rule is decoded sat in the buffer as exactly its encoding, the name and then the raw value as C strings. |
| KfRulesProofs.RuleRoundTrip | kfclient/kfrules.cpp:6-26 | A well-formed rule reads back from its bytes. |
| KfRulesProofs.RuleListCons | kfclient/kfrules.cpp:31-32 | One rule, then the remaining rules from where it stopped; the first failure ends the list. |
| KfRulesProofs.RulesRoundTrip | kfclient/kfrules.cpp:28-33 | Round trip for the rule set: the count and every rule come back in order. |
| KfRulesProofs.RulesBytes | kfclient/kfrules.cpp:28-33 | The converse: whatever rule set is decoded sat in the buffer as exactly its encoding. |
| Counted.Repeat | kfclient/kfrules.cpp:31-32 | The count-driven loop reads exactly `n` entries on success, and the first entry's error is the list's error. |
| Counted.FailurePropagates | kfclient/kfplayers.cpp:10-11 | Once an entry fails, every longer list fails with that error, so no partial list escapes. |
| Counted.RepeatEncoded | kfclient/kfplayers.cpp:10-11 | When every entry reads back from its encoding, the list reads back from the concatenation. |
| Counted.RepeatCanonical | kfclient/kfplayers.cpp:10-11 | Whatever list is read sat in the buffer as the concatenated encodings of its entries. |
| KfPlayers.DecodePlayer | kfclient/kfplayers.cpp:3-5 | An entry reads id (u8), name, score (u32) and time (u32) in order. It advances by `1 + |name| + 1 + 8`, and its fields are within their types. |
| KfPlayers.PlayerRoundTrip | kfclient/kfplayers.cpp:3-5 | A well-formed entry reads back from its encoding. |
| KfPlayers.PlayerBytes | kfclient/kfplayers.cpp:3-5 | The converse for one entry. |
| KfPlayers.DecodePlayers | kfclient/kfplayers.cpp:7-11 | A decoded roster has a u8 count equal to its number of entries (at most 255), each well-formed; any failure is the range error. |
| KfPlayersProofs.PlayersRoundTrip | kfclient/kfplayers.cpp:7-11 | Round trip for the roster: the count and every entry come back in encounter order. |
| KfPlayersProofs.PlayersBytes | kfclient/kfplayers.cpp:7-11 | The converse: whatever roster is decoded sat in the buffer as exactly its encoding. |
| KfPlayersProofs.EmptyRoster | kfclient/kfplayers.cpp:8-11 | A count of 0 yields the empty roster and advances by exactly one byte. |
| KfClient.ReadHeader | kfclient/kfclient.cpp:64-66 | The header read succeeds exactly when 5 bytes remain, and the decoders start 5 bytes on. |
| KfClient.DecodeBody | kfclient/kfclient.cpp:74-89 | The reply kind always matches the type byte. A challenge is a 32-bit signed value. The type is refused as unexpected exactly when it is not one of the four tags. |
| KfClient.DecodeReply | kfclient/kfclient.cpp:62-89 | The magic must be -1. A type other than the expected one is refused unless the wildcard -1 was expected. A buffer shorter than the header is a range error. An unknown type passes the type check only when the expected value is not one of the four tags, as with the wildcard, and is then refused by the dispatch. |
| KfClient.NewSession | kfclient/kfclient.cpp:9-12 | A new client has challenge 0, empty slots, and a buffer of the requested size. |
| KfClient.Receive | kfclient/kfclient.cpp:57 | The datagram overwrites the front of the buffer, truncated to its size, and the other bytes keep their old contents. |
| KfClient.ProcessResponse | kfclient/kfclient.cpp:55-90 | A receive error changes nothing. After a receive, the call succeeds exactly when the received buffer decodes, and the exception it throws is the decoder's. An exception leaves the challenge and every slot unchanged. On success, exactly the slot of the decoded reply is assigned. |
| KfClient.DoChallenge | kfclient/kfclient.cpp:45-53 | A failed send throws before anything changes. A successful call changes no record slot. |
| KfClient.RequestDetails | kfclient/kfclient.cpp:21-27 | The slot is cleared before the exchange. An exception from the exchange is passed on unchanged. Otherwise the call returns exactly what the exchange left in the slot, and throws when the slot is still empty. |
| KfClient.RequestRules | kfclient/kfclient.cpp:29-35 | The same for the rules slot. |
| KfClient.RequestPlayers | kfclient/kfclient.cpp:37-43 | The same for the players slot. |
| KfClientProofs.HeaderStep | kfclient/kfclient.cpp:64-66 | A header of magic -1 and any type byte reads back, and the body starts right after it. |
| KfClientProofs.MagicIsAllOnes | kfclient/kfclient.cpp:68-69 | The magic reads as -1 exactly when the first four bytes are 0xFF. |
| KfClientProofs.ChallengeRoundTrip | kfclient/kfclient.cpp:75-76 | A challenge written as `std::int32_t`, read through `std::uint32_t` and stored in `std::int32_t`, comes back unchanged. |
| KfClientProofs.BodyRoundTrip | kfclient/kfclient.cpp:74-86 | Each valid reply body is decoded into its own kind by the branch of its tag. |
| KfClientProofs.ReplyRoundTrip | kfclient/kfclient.cpp:62-89 | A valid reply datagram at the front of the buffer decodes to that reply, whatever follows it, when its type is expected or the wildcard is. |
| KfClientProofs.OtherReplyRefused | kfclient/kfclient.cpp:71-72 | With a valid magic and a type other than the (non-wildcard) expected one, the reply is refused before its body is read. |
| KfClientProofs.HeaderBytes | kfclient/kfclient.cpp:64-69 | The converse for the header: a header that passes the magic check sat in the buffer as `FF FF FF FF` and its type byte. |
| KfClientProofs.ChallengeBytes | kfclient/kfclient.cpp:75-76 | The converse for the challenge: the stored `std::int32_t` sat in the buffer as its four bytes. |
| KfClientProofs.DecodeBodyOf | kfclient/kfclient.cpp:74-89 | An accepted body came from a known tag, through the decoder of that tag. |
| KfClientProofs.DecodeBodyFails | kfclient/kfclient.cpp:74-89 | A refused body is refused by the decoder of its tag, and that decoder's exception escapes unchanged (the range error, or `stol`'s exception for details). A challenge fails exactly when four bytes do not remain, and then with the range error. |
| KfClientProofs.BodyBytes | kfclient/kfclient.cpp:74-86 | The converse for the body: whatever body is decoded sat in the buffer as exactly its encoding, and for details with the password byte as found. |
| KfClientProofs.DecodeReplyParts | kfclient/kfclient.cpp:62-89 | An accepted datagram passed the magic check, and its body was decoded by the branch of its type byte. |
| KfClientProofs.ReplyBytes | kfclient/kfclient.cpp:62-89 | The converse for the datagram: whatever reply is accepted, the buffer starts with its header and then exactly its body's encoding. A non-details reply is exactly `EncodeReply` of itself. |
| KfClientProofs.ReceivedAtFront | kfclient/kfclient.cpp:57 | A datagram that fits sits at the front of the buffer after the receive. |
| KfClientProofs.ProcessReplyRoundTrip | kfclient/kfclient.cpp:55-90 | A valid reply that fits, of the expected type, is stored in its slot, and only the buffer changes besides. |
| KfClientProofs.ChallengeStored | kfclient/kfclient.cpp:45-53 | `do_challenge` stores the challenge the server sends and leaves every slot alone. |
| KfClientProofs.ChallengeRefusesRecords | kfclient/kfclient.cpp:45-53 | `do_challenge` refuses any record reply as an unexpected packet and changes nothing but the buffer. |
| KfClientProofs.StaleChallengeAccepted | kfclient/kfclient.cpp:57-60 | Because the received length is discarded, a 5-byte challenge header is completed by stale buffer bytes, and the previous challenge is accepted again. |
| KfClientProofs.RequestIgnoresOldRecord | kfclient/kfclient.cpp:21-43 | The outcome of a `request_*` does not depend on what its slot held before, so a stale record is never returned. |
| KfClientProofs.TagsDistinct | kfclient/kfclient.hpp:21-24 | The four tags are pairwise distinct, and none is the wildcard -1. |
| KfClientProofs.RequestTables | kfclient/kfclient.hpp:26-41 | The payloads and their type bytes:<br>- every request starts with `FF FF FF FF`, which is -1 as `std::int32_t`;<br>- the type bytes are 'U' for challenge and players, 'T' for details and 'V' for rules;<br>- the challenge request carries -1;<br>- the 25-byte details request ends in the NUL of its string. |
| KfClientProofs.CapacityRoundTrip | kfclient/kfclient.hpp:43 | With the default 2048-byte capacity, any valid reply of at most 2048 bytes is processed, and a longer one is cut to its first 2048 bytes. |

## Left out

- Sockets and asio (`do_connect`, `send`, `receive`): a receive is an input (`None` for an error, otherwise the datagram), and a send is a parameter giving the transport's verdict.
- `do_request`: it is declared with three parameters but called with two, and its body is not part of this model. The `request_*` functions take it as a parameter of type `Exchange`.
- `process_response` is declared with a `char` parameter and defined with `std::int8_t`. Both are taken as the same signed byte.
- Floating point: the numeric value of `strtod` and `HUGE_VAL` are not modelled. A rule's Number keeps its raw text, and `strtod` is a parameter that reports only how many bytes it converted and whether the result was `HUGE_VAL`. Accordingly, -`HUGE_VAL` counts as a number, as in `kfrule`.
- KfBuffer.ConsumeString: lengths of 2^63 or more are not modelled. In the source, such a `std::size_t` turns into a negative `std::streamoff`, so the seek can move backwards and the `std::string` constructor then throws `length_error`. The model fails with the range error instead. The offset of `KfBuffer.Seek` is likewise an unbounded integer, not a 64-bit `std::streamoff`. The core only reads fixed 4-byte strings.
- Conversions.Stol: locale-dependent whitespace and base prefixes are not modelled; the C locale and base 10 are assumed. `long` is 64 bits, so the Windows build, where `long` is 32 bits and `stol` throws `out_of_range` above 2147483647, is not modelled.
- Conversions.DecimalStrtod: hexadecimal input, `inf`/`nan` and overflow to `HUGE_VAL` are not modelled. It is only a concrete `strtod` for the classification examples; the model itself takes `strtod` as a parameter.
- Memory management in `kfbuffer`: allocation, ownership and the array-template constructor (which would initialise the size from the `size` member function) are not modelled. The `reinterpret` reads are modelled as little-endian decoding.
- `std::unordered_map` iteration order: the additional pairs are a Dafny `map`.
- The default member initialisers of `kfdetails`, `kfrules` and `kfplayers` are visible only where a decoder fills its record (KfDetails.ReadFields leaves the map empty and the counters at 0). No separate default record is modelled, because no caller observes one.
- The cursor position is not kept in `Session`: every use rewinds it, and after an exception the buffer's position is not read again.
- KfBuffer.ConsumeEach: it covers only the unsigned fields. The decoders chain single reads instead, which is the same left-to-right order; a thrown read discards the partly built record.
- The command-line tool, the Lua binding and the export macros are outside the protocol core.

=== FILE: additional.dfy ===
/** The scanner `kfdetails` runs over the server's free-form "additional"
    string, a list of `key:value,` pairs. It reads byte by byte in one of two
    modes: in key mode bytes go to the key, a ':' switches to value mode, and
    in value mode bytes go to the value. Each ',' commits the pair read so
    far and starts a fresh one; a pair with no ',' after it is dropped.
    Besides the scanner itself this module gives an independent,
    segment-by-segment reading of the same grammar and proves the two agree. */
module Additional {
  import opened Wrappers
  import opened Bytes

  const COMMA: Byte := 0x2C
  const COLON: Byte := 0x3A

  type Pairs = map<Bytes, Bytes>

  /** The scanner's locals: the key and value buffers, the mode, and the map. */
  datatype ScanState = ScanState(key: Bytes, value: Bytes, inKey: bool, pairs: Pairs)

  const Start := ScanState([], [], true, map[])

  predicate Clean(s: Bytes) {
    forall i :: 0 <= i < |s| ==> s[i] != COMMA && s[i] != COLON
  }

  predicate CleanPairs(m: Pairs) {
    forall k :: k in m ==> Clean(k) && Clean(m[k])
  }

  /** The loop from index `i` on: it stops at the end of the text or at a NUL,
      whichever comes first. Neither buffer nor any committed key or value
      ever holds a ':' or a ','. */
  function Scan(s: Bytes, i: nat, st: ScanState): (m: Pairs)
    requires i <= |s|
    decreases |s| - i
    ensures Clean(st.key) && Clean(st.value) && CleanPairs(st.pairs) ==> CleanPairs(m)
    ensures st.pairs.Keys <= m.Keys
  {
    if i == |s| || s[i] == NUL then st.pairs
    else if s[i] == COMMA then Scan(s, i + 1, ScanState([], [], true, st.pairs[st.key := st.value]))
    else if s[i] == COLON then Scan(s, i + 1, st.(inKey := false))
    else if st.inKey then Scan(s, i + 1, st.(key := st.key + [s[i]]))
    else Scan(s, i + 1, st.(value := st.value + [s[i]]))
  }

  /** The map `kfdetails` builds from its additional string. */
  function Parse(s: Bytes): (m: Pairs)
    ensures CleanPairs(m)
  {
    Scan(s, 0, Start)
  }

  // ---------------------------------------------------------------------
  // The same grammar read segment by segment.

  /** The index of the first ',' in `t`, if any. */
  function FirstComma(t: Bytes): (r: Option<nat>)
    ensures r.Some? ==> r.value < |t| && t[r.value] == COMMA
    ensures r.Some? ==> forall k :: 0 <= k < r.value ==> t[k] != COMMA
    ensures r.None? ==> forall k :: 0 <= k < |t| ==> t[k] != COMMA
  {
    if |t| == 0 then None
    else if t[0] == COMMA then Some(0)
    else match FirstComma(t[1..])
      case None => None
      case Some(k) => Some(k + 1)
  }

  predicate CommaFree(t: Bytes) {
    forall k :: 0 <= k < |t| ==> t[k] != COMMA
  }

  predicate ColonFree(t: Bytes) {
    forall k :: 0 <= k < |t| ==> t[k] != COLON
  }

  /** The comma-terminated segments of `t` in order, without their commas;
      whatever follows the last ',' is not a segment. */
  function Segments(t: Bytes): seq<Bytes>
    decreases |t|
  {
    match FirstComma(t)
    case None => []
    case Some(k) => [t[..k]] + Segments(t[k + 1..])
  }

  /** A segment's key: everything before its first ':' (all of it when there
      is none). */
  function KeyOf(seg: Bytes): Bytes {
    if |seg| == 0 || seg[0] == COLON then [] else [seg[0]] + KeyOf(seg[1..])
  }

  /** A segment's value: everything after its first ':' with every further
      ':' left out (empty when there is no ':'). */
  function ValueOf(seg: Bytes): Bytes {
    if |seg| == 0 then []
    else if seg[0] == COLON then DropColons(seg[1..])
    else ValueOf(seg[1..])
  }

  function DropColons(t: Bytes): Bytes {
    if |t| == 0 then []
    else (if t[0] == COLON then [] else [t[0]]) + DropColons(t[1..])
  }

  /** Enter each segment's pair into `acc` in order, later ones replacing
      earlier ones with the same key. */
  function Commit(acc: Pairs, segs: seq<Bytes>): Pairs
    decreases |segs|
  {
    if |segs| == 0 then acc else Commit(acc[KeyOf(segs[0]) := ValueOf(segs[0])], segs[1..])
  }

  // ---------------------------------------------------------------------
  // The scanner agrees with the segment reading.

  lemma {:induction false} KeyOfSnoc(p: Bytes, b: Byte)
    requires b != COLON
    ensures ColonFree(p) ==> KeyOf(p + [b]) == KeyOf(p) + [b]
    ensures !ColonFree(p) ==> KeyOf(p + [b]) == KeyOf(p)
  {
    if |p| > 0 {
      assert (p + [b])[1..] == p[1..] + [b];
      KeyOfSnoc(p[1..], b);
      if p[0] != COLON {
        assert ColonFree(p) <==> ColonFree(p[1..]) by {
          assert forall k :: 1 <= k < |p| ==> p[k] == p[1..][k - 1];
        }
      }
    }
  }

  lemma {:induction false} KeyOfColon(p: Bytes)
    ensures KeyOf(p + [COLON]) == KeyOf(p)
  {
    if |p| > 0 {
      assert (p + [COLON])[1..] == p[1..] + [COLON];
      KeyOfColon(p[1..]);
    }
  }

  lemma {:induction false} DropColonsSnoc(t: Bytes, b: Byte)
    ensures DropColons(t + [b]) == DropColons(t) + (if b == COLON then [] else [b])
  {
    if |t| > 0 {
      assert (t + [b])[1..] == t[1..] + [b];
      DropColonsSnoc(t[1..], b);
    }
  }

  lemma {:induction false} ValueOfSnoc(p: Bytes, b: Byte)
    ensures ColonFree(p) ==> ValueOf(p + [b]) == []
    ensures !ColonFree(p) ==> ValueOf(p + [b]) == ValueOf(p) + (if b == COLON then [] else [b])
  {
    if |p| > 0 {
      assert (p + [b])[1..] == p[1..] + [b];
      if p[0] == COLON {
        DropColonsSnoc(p[1..], b);
      } else {
        ValueOfSnoc(p[1..], b);
        assert ColonFree(p) <==> ColonFree(p[1..]) by {
          assert forall k :: 1 <= k < |p| ==> p[k] == p[1..][k - 1];
        }
      }
    } else {
      assert p + [b] == [b];
      if b != COLON {
        assert ValueOf([b]) == ValueOf([]);
      }
    }
  }

  lemma {:induction false} ValueOfColonFree(p: Bytes)
    requires ColonFree(p)
    ensures ValueOf(p) == []
  {
    if |p| > 0 {
      ValueOfColonFree(p[1..]);
    }
  }

  /** A comma-free text followed by a ',' has that ',' as its first comma. */
  lemma {:induction false} FirstCommaAfter(p: Bytes, rest: Bytes)
    requires CommaFree(p)
    ensures FirstComma(p + [COMMA] + rest) == Some(|p|)
  {
    if |p| > 0 {
      assert (p + [COMMA] + rest)[1..] == p[1..] + [COMMA] + rest;
      FirstCommaAfter(p[1..], rest);
    }
  }

  /** The scanner state after reading the comma-free prefix `p` of a segment. */
  function PartState(p: Bytes, acc: Pairs): ScanState {
    ScanState(KeyOf(p), ValueOf(p), ColonFree(p), acc)
  }

  /** Scanning on from any point inside a segment equals committing the
      segments of what was read of it plus what is left. */
  lemma {:induction false} ScanMatchesSegments(s: Bytes, i: nat, p: Bytes, acc: Pairs)
    requires i <= |s| && NulFree(s) && CommaFree(p)
    ensures Scan(s, i, PartState(p, acc)) == Commit(acc, Segments(p + s[i..]))
    decreases |s| - i
  {
    var st := PartState(p, acc);
    if i == |s| {
      assert p + s[i..] == p;
      assert FirstComma(p) == None;
    } else {
      var b := s[i];
      assert s[i..] == [b] + s[i + 1..];
      assert p + s[i..] == (p + [b]) + s[i + 1..];
      if b == COMMA {
        FirstCommaAfter(p, s[i + 1..]);
        assert (p + s[i..])[..|p|] == p;
        assert (p + s[i..])[|p| + 1..] == s[i + 1..];
        assert PartState([], st.pairs[st.key := st.value]) == ScanState([], [], true, st.pairs[st.key := st.value]);
        ScanMatchesSegments(s, i + 1, [], st.pairs[st.key := st.value]);
        assert [] + s[i + 1..] == s[i + 1..];
      } else {
        var p' := p + [b];
        assert CommaFree(p');
        if b == COLON {
          KeyOfColon(p);
          ValueOfSnoc(p, b);
          if ColonFree(p) {
            ValueOfColonFree(p);
          }
          assert p'[|p|] == COLON;
          assert !ColonFree(p');
          assert ValueOf(p') == ValueOf(p);
          assert PartState(p', acc) == st.(inKey := false);
        } else {
          KeyOfSnoc(p, b);
          ValueOfSnoc(p, b);
          assert ColonFree(p') <==> ColonFree(p) by {
            assert forall k :: 0 <= k < |p| ==> p'[k] == p[k];
            assert p'[|p|] == b;
          }
          if ColonFree(p) {
            ValueOfColonFree(p);
            assert PartState(p', acc) == st.(key := st.key + [b]);
          } else {
            assert PartState(p', acc) == st.(value := st.value + [b]);
          }
        }
        ScanMatchesSegments(s, i + 1, p', acc);
      }
    }
  }

  /** The scanner builds exactly the map that committing the text's
      comma-terminated segments in order builds. */
  lemma ParseIsCommit(s: Bytes)
    requires NulFree(s)
    ensures Parse(s) == Commit(map[], Segments(s))
  {
    assert PartState([], map[]) == Start;
    ScanMatchesSegments(s, 0, [], map[]);
    assert [] + s[0..] == s;
  }

  /** Splitting a text after a ',' splits its segments there. */
  lemma {:induction false} SegmentsAppend(a: Bytes, b: Bytes)
    requires |a| == 0 || a[|a| - 1] == COMMA
    ensures Segments(a + b) == Segments(a) + Segments(b)
    decreases |a|
  {
    if |a| == 0 {
      assert a + b == b;
    } else {
      var k := FirstComma(a).value;
      FirstCommaPrefix(a, b);
      assert (a + b)[..k] == a[..k];
      assert (a + b)[k + 1..] == a[k + 1..] + b;
      SegmentsAppend(a[k + 1..], b);
    }
  }

  lemma FirstCommaPrefix(a: Bytes, b: Bytes)
    requires FirstComma(a).Some?
    ensures FirstComma(a + b) == FirstComma(a)
  {
    var k := FirstComma(a).value;
    var t := a + b;
    assert t[k] == COMMA;
    FirstCommaUnique(t, k);
  }

  lemma {:induction false} FirstCommaUnique(t: Bytes, k: nat)
    requires k < |t| && t[k] == COMMA
    requires forall j :: 0 <= j < k ==> t[j] != COMMA
    ensures FirstComma(t) == Some(k)
  {
    if k > 0 {
      FirstCommaUnique(t[1..], k - 1);
    }
  }

  lemma {:induction false} CommitAppend(acc: Pairs, a: seq<Bytes>, b: seq<Bytes>)
    ensures Commit(acc, a + b) == Commit(Commit(acc, a), b)
    decreases |a|
  {
    if |a| == 0 {
      assert a + b == b;
    } else {
      assert (a + b)[0] == a[0];
      assert (a + b)[1..] == a[1..] + b;
      CommitAppend(acc[KeyOf(a[0]) := ValueOf(a[0])], a[1..], b);
    }
  }

  /** Text after the last ',' never reaches the map: appending a pair without
      a closing ',' changes nothing. */
  lemma UnterminatedPairDropped(s: Bytes, tail: Bytes)
    requires |s| == 0 || s[|s| - 1] == COMMA
    requires NulFree(s) && NulFree(tail) && CommaFree(tail)
    ensures Parse(s + tail) == Parse(s)
  {
    assert NulFree(s + tail);
    ParseIsCommit(s + tail);
    ParseIsCommit(s);
    SegmentsAppend(s, tail);
    assert FirstComma(tail) == None;
    assert Segments(s) + [] == Segments(s);
  }

  /** Each ',' commits the pair before it; a later pair with the same key
      replaces the earlier value. */
  lemma CommaCommitsPair(s: Bytes, seg: Bytes)
    requires |s| == 0 || s[|s| - 1] == COMMA
    requires NulFree(s) && NulFree(seg) && CommaFree(seg)
    ensures Parse(s + seg + [COMMA]) == Parse(s)[KeyOf(seg) := ValueOf(seg)]
  {
    var t := seg + [COMMA];
    assert s + seg + [COMMA] == s + t;
    assert NulFree(s + t);
    ParseIsCommit(s + t);
    ParseIsCommit(s);
    SegmentsAppend(s, t);
    FirstCommaAfter(seg, []);
    assert seg + [COMMA] + [] == t;
    assert t[..|seg|] == seg && t[|seg| + 1..] == [];
    assert Segments(t) == [seg];
    CommitAppend(map[], Segments(s), [seg]);
  }
}

=== FILE: bytes.dfy ===
/** Raw bytes and the fixed-width integer views the cursor takes of them.
    Native byte order is fixed as little-endian and `char` as signed, which
    is what the client's x86 builds do. */
module Bytes {

  newtype Byte = b: int | 0 <= b < 0x100
  type Bytes = seq<Byte>

  const NUL: Byte := 0

  function Pow256(width: nat): (p: nat)
    ensures p >= 1
  {
    if width == 0 then 1 else 256 * Pow256(width - 1)
  }

  const TwoTo31: int := 0x8000_0000
  const TwoTo32: int := 0x1_0000_0000

  /** A C string: no byte of it is the terminator. */
  predicate NulFree(s: Bytes) {
    forall i :: 0 <= i < |s| ==> s[i] != NUL
  }

  /** The unsigned value of `bs` read least significant byte first. */
  function LittleEndian(bs: Bytes): (n: nat)
    ensures n < Pow256(|bs|)
  {
    if |bs| == 0 then 0 else bs[0] as nat + 256 * LittleEndian(bs[1..])
  }

  /** `width` bytes holding `n`, least significant first. */
  function ToLittleEndian(n: nat, width: nat): (bs: Bytes)
    requires n < Pow256(width)
    ensures |bs| == width
  {
    if width == 0 then []
    else
      DivideBy256(n, Pow256(width - 1));
      var low := ByteOf(n % 256);
      [low] + ToLittleEndian(n / 256, width - 1)
  }

  function ByteOf(k: nat): (b: Byte)
    requires k < 256
    ensures b as nat == k
  {
    k as Byte
  }

  lemma DivideBy256(n: nat, p: nat)
    requires n < 256 * p
    ensures n / 256 < p
    ensures n == n % 256 + 256 * (n / 256)
  {
  }

  /** The unsigned value of `bs` read most significant byte first. */
  function BigEndian(bs: Bytes): nat {
    if |bs| == 0 then 0 else 256 * BigEndian(bs[..|bs| - 1]) + bs[|bs| - 1] as nat
  }

  /** Two's-complement reading of an unsigned 8-bit value, as a signed `char`. */
  function ToSigned8(u: nat): (v: int)
    requires u < 256
    ensures -128 <= v < 128
    ensures v % 256 == u
  {
    if u < 128 then u else u - 256
  }

  /** Two's-complement reading of an unsigned 32-bit value, as `std::int32_t`. */
  function ToSigned32(u: nat): (v: int)
    requires u < TwoTo32
    ensures -TwoTo31 <= v < TwoTo31
    ensures v % TwoTo32 == u
  {
    if u < TwoTo31 then u else u - TwoTo32
  }

  /** The conversion of any integer to `std::int32_t`: reduction modulo 2^32
      into the signed range. */
  function NarrowToInt32(n: int): (v: int)
    ensures -TwoTo31 <= v < TwoTo31
    ensures (v - n) % TwoTo32 == 0
    ensures -TwoTo31 <= n < TwoTo31 ==> v == n
  {
    ToSigned32(n % TwoTo32)
  }

  /** Reading bytes back from their encoding gives the bytes again. */
  lemma {:induction false} LittleEndianInverse(bs: Bytes)
    ensures ToLittleEndian(LittleEndian(bs), |bs|) == bs
  {
    if |bs| > 0 {
      var n := LittleEndian(bs);
      assert n % 256 == bs[0] as nat;
      assert n / 256 == LittleEndian(bs[1..]);
      LittleEndianInverse(bs[1..]);
    }
  }

  /** Encoding a value and reading it back gives the value again. */
  lemma {:induction false} LittleEndianOfEncoding(n: nat, width: nat)
    requires n < Pow256(width)
    ensures LittleEndian(ToLittleEndian(n, width)) == n
  {
    if width > 0 {
      DivideBy256(n, Pow256(width - 1));
      var rest := ToLittleEndian(n / 256, width - 1);
      assert ([ByteOf(n % 256)] + rest)[1..] == rest;
      LittleEndianOfEncoding(n / 256, width - 1);
    }
  }

  lemma {:induction false} LittleEndianAllOnes(bs: Bytes)
    ensures LittleEndian(bs) == Pow256(|bs|) - 1 <==> forall i :: 0 <= i < |bs| ==> bs[i] == 0xFF
  {
    if |bs| > 0 {
      LittleEndianAllOnes(bs[1..]);
      var rest := LittleEndian(bs[1..]);
      assert LittleEndian(bs) == bs[0] as nat + 256 * rest;
      if LittleEndian(bs) == Pow256(|bs|) - 1 {
        assert bs[0] as nat == 255 && rest == Pow256(|bs| - 1) - 1;
        assert forall i :: 1 <= i < |bs| ==> bs[i] == bs[1..][i - 1];
      }
      if forall i :: 0 <= i < |bs| ==> bs[i] == 0xFF {
        assert forall i :: 0 <= i < |bs| - 1 ==> bs[1..][i] == bs[i + 1];
      }
    }
  }

  lemma {:induction false} BigEndianAllOnes(bs: Bytes)
    ensures BigEndian(bs) == Pow256(|bs|) - 1 <==> forall i :: 0 <= i < |bs| ==> bs[i] == 0xFF
  {
    if |bs| > 0 {
      var front := bs[..|bs| - 1];
      BigEndianAllOnes(front);
      BigEndianBound(front);
      assert Pow256(|bs|) == 256 * Pow256(|front|) by { Pow256Front(|bs|); }
      if forall i :: 0 <= i < |bs| ==> bs[i] == 0xFF {
        assert forall i :: 0 <= i < |front| ==> front[i] == bs[i];
      }
    }
  }

  lemma Pow256Front(width: nat)
    requires width > 0
    ensures Pow256(width) == 256 * Pow256(width - 1)
  {
  }

  lemma {:induction false} BigEndianBound(bs: Bytes)
    ensures BigEndian(bs) < Pow256(|bs|)
  {
    if |bs| > 0 {
      BigEndianBound(bs[..|bs| - 1]);
    }
  }

  /** A four-byte field reads as -1 in either byte order exactly when every
      byte is 0xFF: the header magic does not depend on the host's order. */
  lemma MinusOneIsAllOnes(bs: Bytes)
    requires |bs| == 4
    ensures ToSigned32(LittleEndian(bs)) == -1 <==> bs == [0xFF, 0xFF, 0xFF, 0xFF]
    ensures BigEndian(bs) < TwoTo32
    ensures ToSigned32(LittleEndian(bs)) == -1 <==> ToSigned32(BigEndian(bs)) == -1
  {
    LittleEndianAllOnes(bs);
    BigEndianAllOnes(bs);
    BigEndianBound(bs);
    assert Pow256(4) == TwoTo32;
    if bs == [0xFF, 0xFF, 0xFF, 0xFF] {
    } else {
      assert exists i :: 0 <= i < 4 && bs[i] != 0xFF;
    }
  }

  /** Where `a + b` sits in `buf`, `a` and then `b` sit. */
  lemma SliceSplit(buf: Bytes, pos: nat, a: Bytes, b: Bytes)
    requires pos + |a| + |b| <= |buf|
    requires buf[pos..pos + |a| + |b|] == a + b
    ensures buf[pos..pos + |a|] == a
    ensures buf[pos + |a|..pos + |a| + |b|] == b
  {
    assert buf[pos..pos + |a|] == (a + b)[..|a|];
    assert buf[pos + |a|..pos + |a| + |b|] == (a + b)[|a|..];
  }
}

=== FILE: conversions.dfy ===
/** The two C library text-to-number conversions the decoders call:
    `std::stol` (base 10, for the wave counters) and `strtod` (for rule
    values). `std::stol` is modelled in full on a 64-bit `long`; `strtod`'s
    floating-point result is not modelled, only how much of the text it
    accepts and whether it reported `HUGE_VAL`. */
module Conversions {
  import opened Wrappers
  import opened Bytes

  const LongMin: int := -0x8000_0000_0000_0000
  const LongMax: int := 0x7FFF_FFFF_FFFF_FFFF

  const PLUS: Byte := 0x2B
  const MINUS: Byte := 0x2D
  const DOT: Byte := 0x2E
  const ZERO: Byte := 0x30

  /** `isspace` in the "C" locale: space, \t, \n, \v, \f, \r. */
  predicate IsSpace(b: Byte) {
    b == 0x20 || 0x09 <= b <= 0x0D
  }

  predicate IsDigit(b: Byte) {
    0x30 <= b <= 0x39
  }

  predicate AllDigits(s: Bytes) {
    forall i :: 0 <= i < |s| ==> IsDigit(s[i])
  }

  /** The index of the first byte at or after `i` that is not white space. */
  function SkipSpaces(s: Bytes, i: nat): (j: nat)
    requires i <= |s|
    decreases |s| - i
    ensures i <= j <= |s|
    ensures forall k :: i <= k < j ==> IsSpace(s[k])
    ensures j == |s| || !IsSpace(s[j])
  {
    if i == |s| || !IsSpace(s[i]) then i else SkipSpaces(s, i + 1)
  }

  /** The index of the first byte at or after `i` that is not a digit. */
  function DigitsEnd(s: Bytes, i: nat): (j: nat)
    requires i <= |s|
    decreases |s| - i
    ensures i <= j <= |s|
    ensures AllDigits(s[i..j])
    ensures j == |s| || !IsDigit(s[j])
  {
    if i == |s| || !IsDigit(s[i]) then i else DigitsEnd(s, i + 1)
  }

  /** Decimal value of a digit string, accumulated most significant digit
      first as `strtol` does. */
  function DigitsValue(ds: Bytes): nat
    requires AllDigits(ds)
  {
    if |ds| == 0 then 0
    else 10 * DigitsValue(ds[..|ds| - 1]) + (ds[|ds| - 1] - ZERO) as nat
  }

  /** Where the digits start: after leading white space and one optional sign. */
  function SignEnd(s: Bytes): (j: nat)
    ensures j <= |s|
  {
    var i := SkipSpaces(s, 0);
    if i < |s| && (s[i] == PLUS || s[i] == MINUS) then i + 1 else i
  }

  /** `s` starts with an integer `std::stol` can read. */
  predicate HasLeadingInteger(s: Bytes) {
    SignEnd(s) < |s| && IsDigit(s[SignEnd(s)])
  }

  /** `std::stol(s)`: the longest integer prefix after white space, or
      `std::invalid_argument` when there is none, or `std::out_of_range` when
      it does not fit a 64-bit `long`. Bytes after the digits are ignored. */
  function Stol(s: Bytes): (r: Result<int>)
    ensures r.Ok? ==> LongMin <= r.value <= LongMax
    ensures r == Err(InvalidArgument) <==> !HasLeadingInteger(s)
    ensures r.Err? ==> r.error == InvalidArgument || r.error == OutOfRange
  {
    var j := SignEnd(s);
    var k := DigitsEnd(s, j);
    if k == j then Err(InvalidArgument)
    else
      var magnitude: int := DigitsValue(s[j..k]);
      var n := if Negative(s) then -magnitude else magnitude;
      if n < LongMin || n > LongMax then Err(OutOfRange) else Ok(n)
  }

  /** The optional sign after the leading white space is '-'. */
  predicate Negative(s: Bytes) {
    var i := SkipSpaces(s, 0);
    i < |s| && s[i] == MINUS
  }

  /** The decimal digits of `n`, as `std::to_string` writes them. */
  function Digits(n: nat): (ds: Bytes)
    ensures |ds| > 0 && AllDigits(ds)
  {
    var last := ZERO + ByteOf(n % 10);
    if n < 10 then [last] else Digits(n / 10) + [last]
  }

  /** The decimal text of `n`, with a leading '-' when negative. */
  function Decimal(n: int): (s: Bytes)
    ensures |s| > 0
  {
    if n < 0 then [MINUS] + Digits(-n) else Digits(n)
  }

  lemma {:induction false} DigitsValueOfDigits(n: nat)
    ensures DigitsValue(Digits(n)) == n
  {
    var ds := Digits(n);
    if n >= 10 {
      assert ds[..|ds| - 1] == Digits(n / 10);
      DigitsValueOfDigits(n / 10);
    }
  }

  /** Round trip: `std::stol` reads back the decimal text of any `long`, and
      stops at the first byte that is not a digit. */
  lemma StolOfDecimal(n: int, rest: Bytes)
    requires LongMin <= n <= LongMax
    requires |rest| == 0 || !IsDigit(rest[0])
    ensures Stol(Decimal(n) + rest) == Ok(n)
  {
    var m: nat := if n < 0 then -n else n;
    var ds := Digits(m);
    var j := if n < 0 then 1 else 0;
    var s := Decimal(n) + rest;
    DecimalLayout(n, rest);
    DigitsEndOf(s, j, ds, rest);
    DigitsValueOfDigits(m);
    StolOfParts(s, j, j + |ds|);
  }

  /** Where the sign and the digits of a decimal text sit. */
  lemma DecimalLayout(n: int, rest: Bytes)
    ensures var m: nat := if n < 0 then -n else n;
            var j := if n < 0 then 1 else 0;
            var s := Decimal(n) + rest;
            && j + |Digits(m)| <= |s|
            && s[j..] == Digits(m) + rest
            && s[j..j + |Digits(m)|] == Digits(m)
            && SignEnd(s) == j
            && (Negative(s) <==> n < 0)
  {
    var m: nat := if n < 0 then -n else n;
    var ds := Digits(m);
    var j := if n < 0 then 1 else 0;
    var s := Decimal(n) + rest;
    assert s[j..] == ds + rest;
    assert s[j] == ds[0];
  }

  /** `std::stol` in terms of where its sign and digits were found. */
  lemma StolOfParts(s: Bytes, j: nat, k: nat)
    requires j < k <= |s| && SignEnd(s) == j && DigitsEnd(s, j) == k
    ensures var v: int := DigitsValue(s[j..k]);
            var n := if Negative(s) then -v else v;
            Stol(s) == if n < LongMin || n > LongMax then Err(OutOfRange) else Ok(n)
  {
  }

  lemma {:induction false} DigitsEndOf(s: Bytes, j: nat, ds: Bytes, rest: Bytes)
    requires j <= |s| && s[j..] == ds + rest
    requires AllDigits(ds)
    requires |rest| == 0 || !IsDigit(rest[0])
    ensures DigitsEnd(s, j) == j + |ds|
    decreases |ds|
  {
    if |ds| > 0 {
      assert s[j] == ds[0];
      assert s[j + 1..] == ds[1..] + rest;
      DigitsEndOf(s, j + 1, ds[1..], rest);
    } else {
      assert s[j..] == rest;
    }
  }

  /** Leading white space does not change what `std::stol` reads. */
  lemma {:induction false} StolSkipsSpaces(spaces: Bytes, s: Bytes)
    requires forall i :: 0 <= i < |spaces| ==> IsSpace(spaces[i])
    ensures Stol(spaces + s) == Stol(s)
  {
    var t := spaces + s;
    var n := |spaces|;
    var j := SignEnd(s);
    var k := DigitsEnd(s, j);
    SignEndShift(spaces, s);
    assert t[n..] == s;
    DigitsEndShift(t, s, n, j);
    if k > j {
      assert t[n + j..n + k] == s[j..k];
      StolOfParts(s, j, k);
      StolOfParts(t, n + j, n + k);
    }
  }

  lemma SignEndShift(spaces: Bytes, s: Bytes)
    requires forall i :: 0 <= i < |spaces| ==> IsSpace(spaces[i])
    ensures SignEnd(spaces + s) == |spaces| + SignEnd(s)
    ensures Negative(spaces + s) <==> Negative(s)
  {
    var t := spaces + s;
    var n := |spaces|;
    SkipSpacesShift(t, n, spaces, s);
    var i := SkipSpaces(s, 0);
    assert i < |s| ==> t[n + i] == s[i];
  }

  lemma {:induction false} SkipSpacesShift(t: Bytes, n: nat, spaces: Bytes, s: Bytes)
    requires t == spaces + s && n == |spaces|
    requires forall i :: 0 <= i < |spaces| ==> IsSpace(spaces[i])
    ensures SkipSpaces(t, 0) == n + SkipSpaces(s, 0)
  {
    SkipSpacesFrom(t, 0, n, s);
  }

  lemma {:induction false} SkipSpacesFrom(t: Bytes, i: nat, n: nat, s: Bytes)
    requires i <= n <= |t| && t[n..] == s
    requires forall k :: i <= k < n ==> IsSpace(t[k])
    ensures SkipSpaces(t, i) == n + SkipSpaces(s, 0)
    decreases n - i
  {
    if i < n {
      SkipSpacesFrom(t, i + 1, n, s);
    } else {
      SkipSpacesTail(t, n, s, 0);
    }
  }

  lemma {:induction false} SkipSpacesTail(t: Bytes, n: nat, s: Bytes, i: nat)
    requires n <= |t| && t[n..] == s && i <= |s|
    ensures SkipSpaces(t, n + i) == n + SkipSpaces(s, i)
    decreases |s| - i
  {
    if i < |s| {
      assert t[n + i] == s[i];
      if IsSpace(s[i]) {
        SkipSpacesTail(t, n, s, i + 1);
      }
    }
  }

  lemma {:induction false} DigitsEndShift(t: Bytes, s: Bytes, n: nat, i: nat)
    requires n <= |t| && t[n..] == s && i <= |s|
    ensures DigitsEnd(t, n + i) == n + DigitsEnd(s, i)
    decreases |s| - i
  {
    if i < |s| {
      assert t[n + i] == s[i];
      if IsDigit(s[i]) {
        DigitsEndShift(t, s, n, i + 1);
      }
    }
  }

  /** What `strtod(s, &end)` reports: how many bytes it converted
      (`end - s`), and whether the result compared equal to `HUGE_VAL`. */
  datatype Strtod = Strtod(consumed: nat, huge: bool)

  const LOWER_E: Byte := 0x65
  const UPPER_E: Byte := 0x45

  /** `strtod` restricted to decimal notation: optional white space and sign,
      digits with an optional fraction (at least one digit in all), then an
      exponent that counts only when it has digits. Nothing is consumed when
      there is no digit. Its overflow is not computed. */
  function DecimalStrtod(s: Bytes): (r: Strtod)
    ensures r.consumed <= |s| && !r.huge
    ensures r.consumed > 0 ==> exists k :: SignEnd(s) <= k < r.consumed && IsDigit(s[k])
  {
    var j0 := SignEnd(s);
    var j1 := DigitsEnd(s, j0);
    var hasDot := j1 < |s| && s[j1] == DOT;
    var j2 := if hasDot then DigitsEnd(s, j1 + 1) else j1;
    var fractionDigits := if hasDot then j2 - (j1 + 1) else 0;
    if j1 == j0 && fractionDigits == 0 then Strtod(0, false)
    else
      assert IsDigit(s[if j1 > j0 then j0 else j1 + 1]) by {
        if j1 == j0 {
          assert s[j1 + 1..j2][0] == s[j1 + 1];
        } else {
          assert s[j0..j1][0] == s[j0];
        }
      }
      var hasExponent := j2 < |s| && (s[j2] == LOWER_E || s[j2] == UPPER_E);
      var k := if hasExponent && j2 + 1 < |s| && (s[j2 + 1] == PLUS || s[j2 + 1] == MINUS) then j2 + 2 else j2 + 1;
      var end := if hasExponent && DigitsEnd(s, k) > k then DigitsEnd(s, k) else j2;
      Strtod(end, false)
  }
}

=== FILE: counted.dfy ===
/** The count-driven lists of `kfrules` and `kfplayers`: a count read first,
    then that many entries decoded one after another with `emplace_back`.
    An entry that throws ends the whole decode, so no partial list escapes. */
module Counted {
  import opened Wrappers
  import opened Bytes
  import opened KfBuffer

  /** `n` entries decoded in wire order, each from where the previous one
      stopped; the first failing entry's error is the result. */
  function Repeat<T>(c: Cursor, n: nat, decode: Cursor -> Result<(T, Cursor)>): (r: Result<(seq<T>, Cursor)>)
    decreases n
    ensures r.Ok? ==> |r.value.0| == n
    ensures n == 0 ==> r == Ok(([], c))
    ensures n > 0 && decode(c).Err? ==> r == Err(decode(c).error)
  {
    if n == 0 then Ok(([], c))
    else
      var (x, next) :- decode(c);
      var (rest, end) :- Repeat(next, n - 1, decode);
      Ok(([x] + rest, end))
  }

  /** One entry, then the rest from where it stopped. */
  lemma RepeatCons<T>(c: Cursor, n: nat, decode: Cursor -> Result<(T, Cursor)>, x: T, next: Cursor)
    requires n > 0 && decode(c) == Ok((x, next))
    ensures Repeat(c, n, decode) ==
      match Repeat(next, n - 1, decode)
      case Err(e) => Err(e)
      case Ok((rest, end)) => Ok(([x] + rest, end))
  {
  }

  /** Reading `m + n` entries is reading `m` and then, only if all of those
      succeeded, `n` more from where they stopped. */
  lemma {:induction false} RepeatSplit<T>(c: Cursor, m: nat, n: nat, decode: Cursor -> Result<(T, Cursor)>)
    ensures Repeat(c, m + n, decode) ==
      match Repeat(c, m, decode)
      case Err(e) => Err(e)
      case Ok((xs, mid)) =>
        match Repeat(mid, n, decode)
        case Err(e) => Err(e)
        case Ok((ys, end)) => Ok((xs + ys, end))
    decreases m
  {
    if m == 0 {
      assert Repeat(c, m, decode) == Ok(([], c));
      match Repeat(c, n, decode)
      case Err(_) =>
      case Ok((ys, end)) => assert [] + ys == ys;
    } else {
      match decode(c)
      case Err(_) =>
      case Ok((x, next)) =>
        RepeatCons(c, m + n, decode, x, next);
        RepeatCons(c, m, decode, x, next);
        RepeatSplit(next, m - 1, n, decode);
        assert m + n - 1 == (m - 1) + n;
        match Repeat(next, m - 1, decode)
        case Err(_) =>
        case Ok((xs, mid)) =>
          match Repeat(mid, n, decode)
          case Err(_) =>
          case Ok((ys, end)) =>
            assert [x] + (xs + ys) == ([x] + xs) + ys;
    }
  }

  /** Once the entry after the first `k` fails, every list longer than `k`
      fails with that entry's error: nothing decoded before it survives. */
  lemma FailurePropagates<T>(c: Cursor, k: nat, n: nat, decode: Cursor -> Result<(T, Cursor)>)
    requires k < n
    requires Repeat(c, k, decode).Ok?
    requires decode(Repeat(c, k, decode).value.1).Err?
    ensures Repeat(c, n, decode) == Err(decode(Repeat(c, k, decode).value.1).error)
  {
    RepeatSplit(c, k, n - k, decode);
  }

  /** A property every decoded entry has holds of every entry of the list. */
  lemma {:induction false} RepeatKeeps<T>(c: Cursor, n: nat, decode: Cursor -> Result<(T, Cursor)>, P: T -> bool)
    requires forall d: Cursor :: decode(d).Ok? ==> P(decode(d).value.0)
    ensures Repeat(c, n, decode).Ok? ==>
      forall i :: 0 <= i < |Repeat(c, n, decode).value.0| ==> P(Repeat(c, n, decode).value.0[i])
    decreases n
  {
    if n > 0 && decode(c).Ok? {
      var (x, next) := decode(c).value;
      RepeatKeeps(next, n - 1, decode, P);
      RepeatCons(c, n, decode, x, next);
    }
  }

  /** The list fails only with an error some entry fails with. */
  lemma {:induction false} RepeatFailsWith<T>(c: Cursor, n: nat, decode: Cursor -> Result<(T, Cursor)>, e: Error)
    requires forall d: Cursor :: decode(d).Err? ==> decode(d).error == e
    ensures Repeat(c, n, decode).Err? ==> Repeat(c, n, decode).error == e
    decreases n
  {
    if n > 0 && decode(c).Ok? {
      var (x, next) := decode(c).value;
      RepeatFailsWith(next, n - 1, decode, e);
      RepeatCons(c, n, decode, x, next);
    }
  }

  /** The concatenated encodings of `xs`. */
  function Concat<T>(xs: seq<T>, encode: T -> Bytes): Bytes {
    if |xs| == 0 then [] else encode(xs[0]) + Concat(xs[1..], encode)
  }

  /** In the encoding of a non-empty list, the first entry's encoding sits
      first and the rest's right after it. */
  lemma ConcatSplit<T>(c: Cursor, xs: seq<T>, encode: T -> Bytes)
    requires |xs| > 0
    requires At(c, Concat(xs, encode))
    ensures |Concat(xs, encode)| == |encode(xs[0])| + |Concat(xs[1..], encode)|
    ensures At(c, encode(xs[0]))
    ensures At(Cursor(c.buf, c.pos + |encode(xs[0])|), Concat(xs[1..], encode))
  {
    AtSplit(c, encode(xs[0]), Concat(xs[1..], encode));
  }

  /** `decode` reads `x` back from wherever its encoding sits, and stops
      just after it. */
  ghost predicate ReadsBack<T>(decode: Cursor -> Result<(T, Cursor)>, encode: T -> Bytes, x: T) {
    forall d: Cursor {:trigger At(d, encode(x))} :: At(d, encode(x)) ==> decode(d) == Ok((x, Cursor(d.buf, d.pos + |encode(x)|)))
  }

  /** Round trip for the list: when every entry reads back from its
      encoding, the list reads back from the concatenated encodings, and
      exactly those are consumed. */
  lemma {:induction false} RepeatEncoded<T>(c: Cursor, xs: seq<T>, decode: Cursor -> Result<(T, Cursor)>, encode: T -> Bytes)
    requires forall i :: 0 <= i < |xs| ==> ReadsBack(decode, encode, xs[i])
    requires At(c, Concat(xs, encode))
    ensures Repeat(c, |xs|, decode) == Ok((xs, Cursor(c.buf, c.pos + |Concat(xs, encode)|)))
    decreases |xs|
  {
    if |xs| == 0 {
      assert Concat(xs, encode) == [] && xs == [];
      assert Cursor(c.buf, c.pos + 0) == c;
    } else {
      var next: Cursor := Cursor(c.buf, c.pos + |encode(xs[0])|);
      ConcatSplit(c, xs, encode);
      assert forall i :: 0 <= i < |xs| - 1 ==> xs[1..][i] == xs[i + 1];
      RepeatEncoded(next, xs[1..], decode, encode);
      RepeatEncodedCons(c, xs, decode, encode);
    }
  }

  /** The step of `RepeatEncoded`: the first entry, then the rest. */
  lemma RepeatEncodedCons<T>(c: Cursor, xs: seq<T>, decode: Cursor -> Result<(T, Cursor)>, encode: T -> Bytes)
    requires |xs| > 0 && ReadsBack(decode, encode, xs[0])
    requires At(c, Concat(xs, encode))
    requires |Concat(xs, encode)| == |encode(xs[0])| + |Concat(xs[1..], encode)|
    requires At(c, encode(xs[0]))
    requires Repeat(Cursor(c.buf, c.pos + |encode(xs[0])|), |xs[1..]|, decode)
      == Ok((xs[1..], Cursor(c.buf, c.pos + |encode(xs[0])| + |Concat(xs[1..], encode)|)))
    ensures Repeat(c, |xs|, decode) == Ok((xs, Cursor(c.buf, c.pos + |Concat(xs, encode)|)))
  {
    hide Repeat, Concat, At;
    var x, rest := xs[0], xs[1..];
    var next: Cursor := Cursor(c.buf, c.pos + |encode(x)|);
    var end: Cursor := Cursor(c.buf, next.pos + |Concat(rest, encode)|);
    assert decode(c) == Ok((x, next));
    assert |rest| == |xs| - 1;
    assert Repeat(next, |xs| - 1, decode) == Ok((rest, end));
    RepeatCons(c, |xs|, decode, x, next);
    assert Repeat(c, |xs|, decode) == Ok(([x] + rest, end));
    assert [x] + rest == xs;
  }

  /** Every entry `decode` accepts sat in the buffer as exactly its
      encoding. */
  ghost predicate Canonical<T>(decode: Cursor -> Result<(T, Cursor)>, encode: T -> Bytes) {
    forall d: Cursor {:trigger decode(d)} :: decode(d).Ok? ==>
      At(d, encode(decode(d).value.0)) && decode(d).value.1 == Cursor(d.buf, d.pos + |encode(decode(d).value.0)|)
  }

  /** The other direction for the list: whatever list is read sat in the
      buffer as exactly the concatenated encodings of its entries. */
  lemma {:induction false} RepeatCanonical<T>(c: Cursor, n: nat, decode: Cursor -> Result<(T, Cursor)>, encode: T -> Bytes)
    requires Canonical(decode, encode)
    requires Repeat(c, n, decode).Ok?
    ensures At(c, Concat(Repeat(c, n, decode).value.0, encode))
    ensures Repeat(c, n, decode).value.1 == Cursor(c.buf, c.pos + |Concat(Repeat(c, n, decode).value.0, encode)|)
    decreases n
  {
    var (xs, end) := Repeat(c, n, decode).value;
    if n == 0 {
      assert Concat(xs, encode) == [];
    } else {
      var (x, next) := decode(c).value;
      RepeatCons(c, n, decode, x, next);
      var rest := Repeat(next, n - 1, decode).value.0;
      assert xs == [x] + rest && xs[1..] == rest;
      RepeatCanonical(next, n - 1, decode, encode);
      AtJoin(c, encode(x), Concat(rest, encode));
    }
  }
}

=== FILE: kfbuffer.dfy ===
/** The bounds-checked read head `kfbuffer`: a fixed byte buffer and a
    position that never leaves `[0, size]`. The C++ class keeps the position
    in a mutable field; here a cursor is an immutable value and every read
    returns the value read together with the advanced cursor, or the
    `std::range_error` it throws. A failed read returns no cursor, so the
    caller's position is the one it had before the call. */
module KfBuffer {
  import opened Wrappers
  import opened Bytes

  datatype RawCursor = Cursor(buf: Bytes, pos: nat)

  /** The class invariant `0 <= pos <= size` as a subset type. */
  type Cursor = c: RawCursor | c.pos <= |c.buf| witness Cursor([], 0)

  /** `std::ios::seekdir`: where a seek offset is measured from. */
  datatype Origin = Begin | Current | End

  /** `rewind`: back to the first byte. */
  function Rewind(c: Cursor): Cursor {
    Cursor(c.buf, 0)
  }

  /** `seek`: moves to an absolute target computed from the origin, or throws
      when the target is outside `[0, size]`. From `End` the offset counts
      backwards: the target is `size - offset`. */
  function Seek(c: Cursor, offset: int, origin: Origin): (r: Result<Cursor>)
    ensures r.Err? ==> r.error == OutsideBuffer
    ensures r.Ok? ==> r.value.buf == c.buf
    ensures origin == Begin ==> (r.Ok? <==> 0 <= offset <= |c.buf|)
    ensures origin == Begin && r.Ok? ==> r.value.pos == offset
    ensures origin == Current ==> (r.Ok? <==> 0 <= c.pos + offset <= |c.buf|)
    ensures origin == Current && r.Ok? ==> r.value.pos - c.pos == offset
    ensures origin == End ==> (r.Ok? <==> 0 <= offset <= |c.buf|)
    ensures origin == End && r.Ok? ==> r.value.pos + offset == |c.buf|
  {
    var target :=
      match origin
      case Begin => offset
      case Current => c.pos + offset
      case End => |c.buf| - offset;
    if target < 0 || target > |c.buf| then Err(OutsideBuffer)
    else Ok(Cursor(c.buf, target))
  }

  /** `consume<T>`: the `width` bytes at the position (`width` is `sizeof(T)`),
      advancing past them; throws when fewer than `width` remain. */
  function Consume(c: Cursor, width: nat): (r: Result<(Bytes, Cursor)>)
    ensures r.Ok? <==> width <= |c.buf| - c.pos
    ensures r.Err? ==> r.error == OutsideBuffer
    ensures r.Ok? ==> r.value.0 == c.buf[c.pos..c.pos + width]
    ensures r.Ok? ==> r.value.1 == Cursor(c.buf, c.pos + width)
  {
    var next :- Seek(c, width, Current);
    Ok((c.buf[c.pos..next.pos], next))
  }

  /** `consume_string(length)`: exactly `length` bytes as text. */
  function ConsumeString(c: Cursor, length: nat): (r: Result<(Bytes, Cursor)>)
    ensures r.Ok? <==> length <= |c.buf| - c.pos
    ensures r.Ok? ==> |r.value.0| == length && r.value.1 == Cursor(c.buf, c.pos + length)
    ensures r.Ok? ==> At(c, r.value.0)
  {
    Consume(c, length)
  }

  /** The index of the first NUL at or after `from`, as the scan in
      `consume_string_null` finds it. */
  function FindNul(buf: Bytes, from: nat): (r: Option<nat>)
    requires from <= |buf|
    decreases |buf| - from
    ensures r.None? ==> NulFree(buf[from..])
    ensures r.Some? ==> from <= r.value < |buf| && buf[r.value] == NUL && NulFree(buf[from..r.value])
  {
    if from == |buf| then None
    else if buf[from] == NUL then Some(from)
    else
      var r := FindNul(buf, from + 1);
      assert r.None? ==> buf[from..] == [buf[from]] + buf[from + 1..];
      assert r.Some? ==> buf[from..r.value] == [buf[from]] + buf[from + 1..r.value];
      r
  }

  /** No NUL is left from the position on. */
  predicate NoTerminator(c: Cursor) {
    NulFree(c.buf[c.pos..])
  }

  /** `consume_string_null`: the bytes up to the first NUL, leaving the cursor
      just past that NUL; throws when no NUL is left in the buffer. */
  function ConsumeStringNull(c: Cursor): (r: Result<(Bytes, Cursor)>)
    ensures r.Err? <==> NoTerminator(c)
    ensures r.Err? ==> r.error == OutsideBuffer
    ensures r.Ok? ==> NulFree(r.value.0) && At(c, EncodeCString(r.value.0))
    ensures r.Ok? ==> r.value.1 == Cursor(c.buf, c.pos + |r.value.0| + 1)
  {
    match FindNul(c.buf, c.pos)
    case None => Err(OutsideBuffer)
    case Some(z) =>
      assert c.buf[c.pos..][z - c.pos] == NUL;
      var next := Seek(c, z - c.pos + 1, Current).value;
      Ok((c.buf[c.pos..z], next))
  }

  /** `sizeof` of the integer types the decoders read: `std::uint8_t` and
      `char`, `std::uint16_t`, `std::uint32_t` and `std::int32_t`. */
  const U8: nat := 1
  const U16: nat := 2
  const U32: nat := 4

  /** `encoding` sits at the cursor: the next `|encoding|` bytes are exactly it. */
  predicate At(c: Cursor, encoding: Bytes) {
    c.pos + |encoding| <= |c.buf| && c.buf[c.pos..c.pos + |encoding|] == encoding
  }

  /** The `width` bytes an integer occupies in memory once cast to a
      `width`-byte integer type: its two's-complement residue modulo
      256^width, least significant byte first. */
  function EncodeInt(n: int, width: nat): (bs: Bytes)
    ensures |bs| == width
  {
    ToLittleEndian(n % Pow256(width), width)
  }

  /** `consume<T>` for an unsigned `T` of `width` bytes, in the host's
      little-endian order. */
  function ConsumeUnsigned(c: Cursor, width: nat): (r: Result<(nat, Cursor)>)
    ensures r.Ok? <==> width <= |c.buf| - c.pos
    ensures r.Err? ==> r.error == OutsideBuffer
    ensures r.Ok? ==> r.value.0 < Pow256(width) && r.value.1 == Cursor(c.buf, c.pos + width)
  {
    var (bs, next) :- Consume(c, width);
    Ok((LittleEndian(bs), next))
  }

  /** `consume<std::int32_t>`: four bytes read as two's complement. */
  function ConsumeInt32(c: Cursor): (r: Result<(int, Cursor)>)
    ensures r.Ok? <==> U32 <= |c.buf| - c.pos
    ensures r.Err? ==> r.error == OutsideBuffer
    ensures r.Ok? ==> -TwoTo31 <= r.value.0 < TwoTo31 && r.value.1 == Cursor(c.buf, c.pos + U32)
  {
    var (u, next) :- ConsumeUnsigned(c, U32);
    Ok((ToSigned32(u), next))
  }

  /** `consume<char>`: one byte read as a signed `char`. */
  function ConsumeChar(c: Cursor): (r: Result<(int, Cursor)>)
    ensures r.Ok? <==> U8 <= |c.buf| - c.pos
    ensures r.Err? ==> r.error == OutsideBuffer
    ensures r.Ok? ==> -0x80 <= r.value.0 < 0x80 && r.value.1 == Cursor(c.buf, c.pos + U8)
  {
    var (u, next) :- ConsumeUnsigned(c, U8);
    Ok((ToSigned8(u), next))
  }

  /** `consume_cast<std::uint8_t>` into `bool`: any non-zero byte is true. */
  function ConsumeBool(c: Cursor): (r: Result<(bool, Cursor)>)
    ensures r.Ok? <==> U8 <= |c.buf| - c.pos
    ensures r.Err? ==> r.error == OutsideBuffer
    ensures r.Ok? ==> r.value.1 == Cursor(c.buf, c.pos + U8)
    ensures r.Ok? ==> (r.value.0 <==> c.buf[c.pos] != 0)
  {
    var (u, next) :- ConsumeUnsigned(c, U8);
    assert c.buf[c.pos..c.pos + 1] == [ByteOf(u)];
    Ok((u != 0, next))
  }

  /** The byte a writer puts on the wire for a `bool`. */
  function EncodeBool(b: bool): Bytes {
    if b then [1] else [0]
  }

  /** A C string on the wire: its bytes, then the terminator. */
  function EncodeCString(s: Bytes): Bytes {
    s + [NUL]
  }

  lemma ModSmall(n: nat, p: nat)
    requires n < p
    ensures n % p == n
  {
  }

  lemma Pow256Widths()
    ensures Pow256(U8) == 0x100 && Pow256(U16) == 0x1_0000 && Pow256(U32) == TwoTo32
  {
    assert Pow256(1) == 0x100;
    assert Pow256(2) == 0x1_0000;
    assert Pow256(3) == 0x100_0000;
  }

  /** Where `a + b` sits, `a` sits, and `b` sits right after it. */
  lemma AtSplit(c: Cursor, a: Bytes, b: Bytes)
    requires At(c, a + b)
    ensures At(c, a) && At(Cursor(c.buf, c.pos + |a|), b)
  {
    SliceSplit(c.buf, c.pos, a, b);
  }

  /** Where `a` sits and `b` sits right after it, `a + b` sits. */
  lemma AtJoin(c: Cursor, a: Bytes, b: Bytes)
    requires At(c, a) && At(Cursor(c.buf, c.pos + |a|), b)
    ensures At(c, a + b)
  {
    assert c.buf[c.pos..c.pos + |a| + |b|] == c.buf[c.pos..c.pos + |a|] + c.buf[c.pos + |a|..c.pos + |a| + |b|];
  }

  /** `rewind` is a seek to offset 0 from the beginning. */
  lemma RewindIsSeekToStart(c: Cursor)
    ensures Seek(c, 0, Begin) == Ok(Rewind(c))
    ensures Rewind(c).pos == 0 && Rewind(c).buf == c.buf
  {
  }

  /** `seek(0, cur)` leaves the cursor exactly where it was, so every later
      read returns what it would have returned without it. */
  lemma SeekCurrentZero(c: Cursor)
    ensures Seek(c, 0, Current) == Ok(c)
  {
  }

  /** Seeking `offset` from the end is seeking `size - offset` from the
      beginning (not `size + offset`). */
  lemma SeekFromEnd(c: Cursor, offset: int)
    ensures Seek(c, offset, End) == Seek(c, |c.buf| - offset, Begin)
    ensures offset < 0 ==> Seek(c, offset, End).Err?
  {
  }

  /** Round trip for the unsigned reads: an encoded value reads back and
      exactly its `width` bytes are consumed. */
  lemma ConsumeUnsignedEncoded(c: Cursor, width: nat, n: nat)
    requires n < Pow256(width)
    requires At(c, EncodeInt(n, width))
    ensures ConsumeUnsigned(c, width) == Ok((n, Cursor(c.buf, c.pos + width)))
  {
    ModSmall(n, Pow256(width));
    var bs := ToLittleEndian(n, width);
    assert Consume(c, width) == Ok((bs, Cursor(c.buf, c.pos + width)));
    LittleEndianOfEncoding(n, width);
  }

  /** Round trip for `std::int32_t`: any value of the type reads back. */
  lemma ConsumeInt32Encoded(c: Cursor, n: int)
    requires -TwoTo31 <= n < TwoTo31
    requires At(c, EncodeInt(n, U32))
    ensures ConsumeInt32(c) == Ok((n, Cursor(c.buf, c.pos + U32)))
  {
    Pow256Widths();
    Int32Residue(n);
    var u := n % TwoTo32;
    assert EncodeInt(u, U32) == EncodeInt(n, U32);
    ConsumeUnsignedEncoded(c, U32, u);
    hide *;
    ConsumeInt32Of(c, u);
  }

  /** `ConsumeInt32` from the unsigned read it makes. */
  lemma ConsumeInt32Of(c: Cursor, u: nat)
    requires u < TwoTo32
    requires ConsumeUnsigned(c, U32) == Ok((u, Cursor(c.buf, c.pos + U32)))
    ensures ConsumeInt32(c) == Ok((ToSigned32(u), Cursor(c.buf, c.pos + U32)))
  {
  }

  /** The residue of an `std::int32_t` modulo 2^32 is its bit pattern read
      as unsigned, and reads back as the same signed value. */
  lemma Int32Residue(n: int)
    requires -TwoTo31 <= n < TwoTo31
    ensures n % TwoTo32 % TwoTo32 == n % TwoTo32
    ensures ToSigned32(n % TwoTo32) == n
  {
    if n >= 0 {
      ModSmall(n, TwoTo32);
    } else {
      assert n % TwoTo32 == n + TwoTo32;
      ModSmall(n + TwoTo32, TwoTo32);
    }
  }

  /** Round trip for `char`. */
  lemma ConsumeCharEncoded(c: Cursor, n: int)
    requires -0x80 <= n < 0x80
    requires At(c, EncodeInt(n, U8))
    ensures ConsumeChar(c) == Ok((n, Cursor(c.buf, c.pos + U8)))
  {
    Pow256Widths();
    ConsumeUnsignedEncoded(c, U8, n % 0x100);
  }

  /** Round trip for the `bool` cast: the byte a writer puts for `b` reads
      back as `b`. */
  lemma ConsumeBoolEncoded(c: Cursor, b: bool)
    requires At(c, EncodeBool(b))
    ensures ConsumeBool(c) == Ok((b, Cursor(c.buf, c.pos + U8)))
  {
    assert c.buf[c.pos] == EncodeBool(b)[0];
  }

  /** The other direction for the unsigned reads: whatever is read sat in
      the buffer as exactly the encoding of the value read. */
  lemma ConsumeUnsignedBytes(c: Cursor, width: nat)
    requires ConsumeUnsigned(c, width).Ok?
    ensures At(c, EncodeInt(ConsumeUnsigned(c, width).value.0, width))
  {
    var bs := c.buf[c.pos..c.pos + width];
    LittleEndianInverse(bs);
    ModSmall(LittleEndian(bs), Pow256(width));
  }

  /** The same for `std::int32_t`. */
  lemma ConsumeInt32Bytes(c: Cursor)
    requires ConsumeInt32(c).Ok?
    ensures At(c, EncodeInt(ConsumeInt32(c).value.0, U32))
  {
    Pow256Widths();
    ConsumeUnsignedBytes(c, U32);
  }

  /** The same for `char`. */
  lemma ConsumeCharBytes(c: Cursor)
    requires ConsumeChar(c).Ok?
    ensures At(c, EncodeInt(ConsumeChar(c).value.0, U8))
  {
    Pow256Widths();
    ConsumeUnsignedBytes(c, U8);
  }

  /** Whatever `consume_string_null` returns sat in the buffer as a C string. */
  lemma ConsumeStringNullBytes(c: Cursor)
    requires ConsumeStringNull(c).Ok?
    ensures At(c, EncodeCString(ConsumeStringNull(c).value.0))
  {
    var s := ConsumeStringNull(c).value.0;
    assert c.buf[c.pos..c.pos + |s| + 1] == c.buf[c.pos..c.pos + |s|] + [c.buf[c.pos + |s|]];
  }

  /** Round trip for `consume_string_null`: a NUL-free string followed by
      its terminator reads back, and the terminator is consumed too. */
  lemma ConsumeCStringEncoded(c: Cursor, s: Bytes)
    requires NulFree(s)
    requires At(c, EncodeCString(s))
    ensures ConsumeStringNull(c) == Ok((s, Cursor(c.buf, c.pos + |s| + 1)))
  {
    var enc := s + [NUL];
    assert forall k :: c.pos <= k < c.pos + |s| ==> c.buf[k] == enc[k - c.pos];
    assert c.buf[c.pos + |s|] == enc[|s|];
    assert FindNul(c.buf, c.pos) == Some(c.pos + |s|);
    assert c.buf[c.pos..c.pos + |s|] == enc[..|s|];
  }

  /** Nothing sits anywhere. */
  lemma AtEmpty(c: Cursor)
    ensures At(c, [])
  {
  }

  /** One C string read off the front of `s + rest`: `s` comes back and
      `rest` sits where the read stopped. */
  lemma CStringStep(c: Cursor, s: Bytes, rest: Bytes)
    requires NulFree(s)
    requires At(c, EncodeCString(s) + rest)
    ensures ConsumeStringNull(c) == Ok((s, Cursor(c.buf, c.pos + |s| + 1)))
    ensures At(Cursor(c.buf, c.pos + |s| + 1), rest)
  {
    AtSplit(c, EncodeCString(s), rest);
    ConsumeCStringEncoded(c, s);
  }

  /** One unsigned number read off the front of its encoding followed by
      `rest`. */
  lemma UnsignedStep(c: Cursor, width: nat, n: nat, rest: Bytes)
    requires n < Pow256(width)
    requires At(c, EncodeInt(n, width) + rest)
    ensures ConsumeUnsigned(c, width) == Ok((n, Cursor(c.buf, c.pos + width)))
    ensures At(Cursor(c.buf, c.pos + width), rest)
  {
    AtSplit(c, EncodeInt(n, width), rest);
    ConsumeUnsignedEncoded(c, width, n);
  }

  /** The other direction of `CStringStep`: a C string read, then `rest`
      where the read stopped, is the string's encoding followed by `rest`. */
  lemma CStringJoin(c: Cursor, rest: Bytes)
    requires ConsumeStringNull(c).Ok?
    requires At(ConsumeStringNull(c).value.1, rest)
    ensures At(c, EncodeCString(ConsumeStringNull(c).value.0) + rest)
  {
    ConsumeStringNullBytes(c);
    AtJoin(c, EncodeCString(ConsumeStringNull(c).value.0), rest);
  }

  /** The other direction of `UnsignedStep`. */
  lemma UnsignedJoin(c: Cursor, width: nat, rest: Bytes)
    requires ConsumeUnsigned(c, width).Ok?
    requires At(ConsumeUnsigned(c, width).value.1, rest)
    ensures At(c, EncodeInt(ConsumeUnsigned(c, width).value.0, width) + rest)
  {
    ConsumeUnsignedBytes(c, width);
    AtJoin(c, EncodeInt(ConsumeUnsigned(c, width).value.0, width), rest);
  }

  /** One `bool` byte read off the front of `flag + rest`: any non-zero
      byte reads as true. */
  lemma BoolStep(c: Cursor, flag: Bytes, rest: Bytes)
    requires |flag| == 1
    requires At(c, flag + rest)
    ensures ConsumeBool(c) == Ok((flag[0] != 0, Cursor(c.buf, c.pos + U8)))
    ensures At(Cursor(c.buf, c.pos + U8), rest)
  {
    AtSplit(c, flag, rest);
    assert c.buf[c.pos] == c.buf[c.pos..c.pos + 1][0];
  }

  /** The other direction of `BoolStep`: the byte read, then `rest`. */
  lemma BoolJoin(c: Cursor, rest: Bytes)
    requires ConsumeBool(c).Ok?
    requires At(ConsumeBool(c).value.1, rest)
    ensures At(c, [c.buf[c.pos]] + rest)
  {
    assert c.buf[c.pos..c.pos + 1] == [c.buf[c.pos]];
    AtJoin(c, [c.buf[c.pos]], rest);
  }

  /** `length` raw bytes read off the front of `s + rest`. */
  lemma StringStep(c: Cursor, s: Bytes, rest: Bytes)
    requires At(c, s + rest)
    ensures ConsumeString(c, |s|) == Ok((s, Cursor(c.buf, c.pos + |s|)))
    ensures At(Cursor(c.buf, c.pos + |s|), rest)
  {
    AtSplit(c, s, rest);
  }

  /** The other direction of `StringStep`. */
  lemma StringJoin(c: Cursor, length: nat, rest: Bytes)
    requires ConsumeString(c, length).Ok?
    requires At(ConsumeString(c, length).value.1, rest)
    ensures At(c, ConsumeString(c, length).value.0 + rest)
  {
    AtJoin(c, ConsumeString(c, length).value.0, rest);
  }

  /** Round trip for `consume_string(length)`: any `length` bytes, NULs
      included, read back. */
  lemma ConsumeStringEncoded(c: Cursor, s: Bytes)
    requires At(c, s)
    ensures ConsumeString(c, |s|) == Ok((s, Cursor(c.buf, c.pos + |s|)))
  {
  }

  /** What the variadic `consume` leaves behind over unsigned fields: the
      values assigned so far, the position the buffer reached, and the error
      thrown, if any. */
  datatype Progress = Progress(values: seq<nat>, cursor: Cursor, error: Option<Error>)

  /** The variadic `consume` over fields of the given widths: a fold over
      the fields from left to right. A field that does not fit throws, and
      the fields before it stay consumed: there is no rollback. */
  function ConsumeEach(c: Cursor, widths: seq<nat>): (p: Progress)
    ensures |p.values| <= |widths|
    ensures p.error.None? <==> |p.values| == |widths|
    ensures p.error.Some? ==> p.error.value == OutsideBuffer
    ensures p.cursor.buf == c.buf
    decreases |widths|
  {
    if |widths| == 0 then Progress([], c, None)
    else
      match ConsumeUnsigned(c, widths[0])
      case Err(e) => Progress([], c, Some(e))
      case Ok((v, next)) =>
        var rest := ConsumeEach(next, widths[1..]);
        Progress([v] + rest.values, rest.cursor, rest.error)
  }

  /** The total width of some fields. */
  function Width(widths: seq<nat>): nat {
    if |widths| == 0 then 0 else widths[0] + Width(widths[1..])
  }

  lemma WidthCons(widths: seq<nat>, i: nat)
    requires i < |widths|
    ensures Width(widths[..i + 1]) == widths[0] + Width(widths[1..][..i])
  {
    assert widths[..i + 1][1..] == widths[1..][..i];
  }

  /** The position is past exactly the fields read, and when the fold threw,
      the next field did not fit there. */
  lemma {:induction false} ConsumeEachPosition(c: Cursor, widths: seq<nat>)
    ensures var p := ConsumeEach(c, widths);
      && p.cursor.pos == c.pos + Width(widths[..|p.values|])
      && (p.error.Some? ==> p.cursor.pos + widths[|p.values|] > |c.buf|)
    decreases |widths|
  {
    if |widths| > 0 {
      match ConsumeUnsigned(c, widths[0])
      case Err(_) =>
        assert widths[..0] == [];
      case Ok((v, next)) =>
        ConsumeEachPosition(next, widths[1..]);
        var rest := ConsumeEach(next, widths[1..]);
        WidthCons(widths, |rest.values|);
    }
  }

  /** What was assigned before a throw is exactly what the variadic
      `consume` of the fields before the failing one reads. */
  lemma {:induction false} ConsumeEachPrefix(c: Cursor, widths: seq<nat>)
    ensures var p := ConsumeEach(c, widths);
      ConsumeEach(c, widths[..|p.values|]) == Progress(p.values, p.cursor, None)
    decreases |widths|
  {
    if |widths| > 0 {
      match ConsumeUnsigned(c, widths[0])
      case Err(_) =>
        assert widths[..0] == [];
      case Ok((v, next)) =>
        ConsumeEachPrefix(next, widths[1..]);
        var k := |ConsumeEach(next, widths[1..]).values|;
        assert widths[..k + 1][1..] == widths[1..][..k];
        assert widths[..k + 1][0] == widths[0];
    }
  }

  /** Field `i` of `widths`, read at the running position from `c`, is `v`:
      the `widths[i]` bytes past the fields before it hold `v`. */
  predicate FieldAt(c: Cursor, widths: seq<nat>, i: nat, v: nat)
    requires i < |widths|
  {
    var at := c.pos + Width(widths[..i]);
    && at + widths[i] <= |c.buf|
    && ConsumeUnsigned(Cursor(c.buf, at), widths[i]) == Ok((v, Cursor(c.buf, at + widths[i])))
  }

  lemma FieldAtFirst(c: Cursor, widths: seq<nat>, v: nat, next: Cursor)
    requires |widths| > 0
    requires ConsumeUnsigned(c, widths[0]) == Ok((v, next))
    ensures FieldAt(c, widths, 0, v)
  {
    assert widths[..0] == [];
  }

  lemma FieldAtShift(c: Cursor, widths: seq<nat>, i: nat, v: nat)
    requires 0 < i < |widths|
    requires c.pos + widths[0] <= |c.buf|
    requires FieldAt(Cursor(c.buf, c.pos + widths[0]), widths[1..], i - 1, v)
    ensures FieldAt(c, widths, i, v)
  {
    WidthCons(widths, i - 1);
    assert widths[1..][i - 1] == widths[i];
  }

  /** Every one of `values` is the field of `widths` read at the running
      position from `c`. */
  predicate FieldsAt(c: Cursor, widths: seq<nat>, values: seq<nat>) {
    && |values| <= |widths|
    && forall i :: 0 <= i < |values| ==> FieldAt(c, widths, i, values[i])
  }

  /** Every value assigned is the field read at the running position, so the
      fold assigns what the buffer holds, in field order. */
  lemma {:induction false} ConsumeEachValues(c: Cursor, widths: seq<nat>)
    ensures FieldsAt(c, widths, ConsumeEach(c, widths).values)
    decreases |widths|
  {
    hide FieldAt;
    if |widths| > 0 {
      match ConsumeUnsigned(c, widths[0])
      case Err(_) =>
      case Ok((v, next)) =>
        ConsumeEachValues(next, widths[1..]);
        var p := ConsumeEach(c, widths);
        var rest := ConsumeEach(next, widths[1..]);
        assert p.values == [v] + rest.values;
        assert FieldsAt(next, widths[1..], rest.values);
        forall i | 0 <= i < |p.values|
          ensures FieldAt(c, widths, i, p.values[i])
        {
          if i == 0 {
            FieldAtFirst(c, widths, v, next);
          } else {
            assert p.values[i] == rest.values[i - 1];
            FieldAtShift(c, widths, i, p.values[i]);
          }
        }
    }
  }

  /** No rollback: when a later field throws, the cursor stays past every
      field read before it. */
  lemma NoRollback(c: Cursor, widths: seq<nat>)
    requires ConsumeEach(c, widths).error.Some?
    ensures ConsumeEach(c, widths).cursor.pos == c.pos + Width(widths[..|ConsumeEach(c, widths).values|])
    ensures |ConsumeEach(c, widths).values| > 0 && widths[0] > 0 ==> ConsumeEach(c, widths).cursor != c
  {
    ConsumeEachPosition(c, widths);
    var k := |ConsumeEach(c, widths).values|;
    if k > 0 {
      assert widths[..k][0] == widths[0];
    }
  }
}


=== FILE: kfclient.dfy ===
/** The query client `kfclient`: the request payloads it sends, and what
    `process_response` does with a received datagram. The socket is not
    modelled: a receive is its outcome (`None` when asio reported an error,
    otherwise the datagram), a send is the transport's verdict on the
    payload, and `do_request`, whose body is not part of this model, is a
    parameter of the `request_*` functions. */
module KfClient {
  import opened Wrappers
  import opened Bytes
  import opened KfBuffer
  import opened KfDetails
  import opened KfRules
  import opened KfPlayers

  /** The header's type byte for each reply: 'A', 'D', 'I', 'E'. */
  const PACKET_CHALLENGE: int := 0x41
  const PACKET_PLAYERS: int := 0x44
  const PACKET_DETAILS: int := 0x49
  const PACKET_RULES: int := 0x45

  const TAGS: set<int> := {PACKET_CHALLENGE, PACKET_PLAYERS, PACKET_DETAILS, PACKET_RULES}

  /** The expected tag that accepts any type byte. */
  const ANY_PACKET: int := -1

  /** The header magic of a single-packet reply, as `std::int32_t`. */
  const MAGIC: int := -1

  /** The four 0xFF bytes every request starts with. */
  const REQUEST_PREFIX: Bytes := [0xFF, 0xFF, 0xFF, 0xFF]

  const REQUEST_CHALLENGE: Bytes := [0xFF, 0xFF, 0xFF, 0xFF, 0x55, 0xFF, 0xFF, 0xFF, 0xFF]

  /** 0x54, then "Source Engine Query" and its NUL. */
  const REQUEST_DETAILS: Bytes := [
    0xFF, 0xFF, 0xFF, 0xFF, 0x54, 0x53, 0x6F, 0x75, 0x72, 0x63, 0x65, 0x20, 0x45,
    0x6E, 0x67, 0x69, 0x6E, 0x65, 0x20, 0x51, 0x75, 0x65, 0x72, 0x79, 0x00]

  const REQUEST_PLAYERS: Bytes := [0xFF, 0xFF, 0xFF, 0xFF, 0x55]
  const REQUEST_RULES: Bytes := [0xFF, 0xFF, 0xFF, 0xFF, 0x56]

  /** The default `receive_buffer_size` of the constructor. */
  const RECEIVE_CAPACITY: nat := 2048

  /** `kfheader`: a 32-bit magic, then the type as a signed `char`. */
  datatype Header = Header(magic: int, packetType: int)

  const HEADER_SIZE: nat := U32 + U8

  /** `consume(header.magic)` and then `consume(header.type)`. */
  function ReadHeader(c: Cursor): (r: Result<(Header, Cursor)>)
    ensures r.Ok? <==> HEADER_SIZE <= |c.buf| - c.pos
    ensures r.Err? ==> r.error == OutsideBuffer
    ensures r.Ok? ==> r.value.1 == Cursor(c.buf, c.pos + HEADER_SIZE)
    ensures r.Ok? ==> -0x80 <= r.value.0.packetType < 0x80
  {
    var (magic, c1) :- ConsumeInt32(c);
    var (packetType, c2) :- ConsumeChar(c1);
    Ok((Header(magic, packetType), c2))
  }

  /** What one reply carries: the new challenge, or one decoded record. */
  datatype Reply =
    | ChallengeReply(challenge: int)
    | DetailsReply(details: Details)
    | RulesReply(rules: Rules)
    | PlayersReply(players: Players)

  function TagOf(reply: Reply): int {
    match reply
    case ChallengeReply(_) => PACKET_CHALLENGE
    case DetailsReply(_) => PACKET_DETAILS
    case RulesReply(_) => PACKET_RULES
    case PlayersReply(_) => PACKET_PLAYERS
  }

  /** The `switch` on the type byte, reading from just after the header: 'A'
      reads a `std::uint32_t` into the `std::int32_t` challenge, 'I', 'E' and
      'D' run the record's constructor, and any other type throws. */
  function DecodeBody(packetType: int, c: Cursor, strtod: StrtodFn): (r: Result<Reply>)
    ensures r.Ok? ==> TagOf(r.value) == packetType
    ensures r.Ok? && r.value.ChallengeReply? ==> -TwoTo31 <= r.value.challenge < TwoTo31
    ensures (r.Err? && r.error == UnexpectedType) <==> packetType !in TAGS
  {
    if packetType == PACKET_CHALLENGE then
      var (u, _) :- ConsumeUnsigned(c, U32);
      Ok(ChallengeReply(NarrowToInt32(u)))
    else if packetType == PACKET_DETAILS then
      var (d, _) :- DecodeDetails(c);
      Ok(DetailsReply(d))
    else if packetType == PACKET_RULES then
      var (rules, _) :- DecodeRules(c, strtod);
      Ok(RulesReply(rules))
    else if packetType == PACKET_PLAYERS then
      var (players, _) :- DecodePlayers(c);
      Ok(PlayersReply(players))
    else Err(UnexpectedType)
  }

  /** `process_response` once the datagram is in the buffer: rewind, read the
      header, reject a wrong magic, reject a type other than the expected one
      unless the wildcard was expected, then dispatch on the type. */
  function DecodeReply(buf: Bytes, expected: int, strtod: StrtodFn): (r: Result<Reply>)
    ensures r.Ok? ==> TagOf(r.value) == expected || expected == ANY_PACKET
    ensures r.Err? && r.error == UnexpectedType ==> expected !in TAGS
    ensures |buf| < HEADER_SIZE ==> r == Err(OutsideBuffer)
    ensures HEADER_SIZE <= |buf| ==>
      var header := ReadHeader(Cursor(buf, 0)).value.0;
      && (header.magic != MAGIC ==> r == Err(BadMagic))
      && (header.magic == MAGIC && expected != ANY_PACKET && header.packetType != expected ==> r == Err(UnexpectedPacket))
      && (r.Ok? ==> header.magic == MAGIC && TagOf(r.value) == header.packetType)
  {
    var start: Cursor := Rewind(Cursor(buf, |buf|));
    var (header, body) :- ReadHeader(start);
    if header.magic != MAGIC then Err(BadMagic)
    else if expected != ANY_PACKET && header.packetType != expected then Err(UnexpectedPacket)
    else DecodeBody(header.packetType, body, strtod)
  }

  /** The client's state between calls: the receive buffer with whatever it
      last held, the challenge, and the three record slots (`nullptr` is
      `None`). The cursor's position is not kept: every use rewinds it. */
  datatype Session = Session(
    buffer: Bytes,
    challenge: int,
    details: Option<Details>,
    rules: Option<Rules>,
    players: Option<Players>)

  /** The constructor: a buffer of `capacity` bytes whose contents were never
      written (`initial`), challenge 0 and empty slots. */
  function NewSession(initial: Bytes): (s: Session)
    ensures |s.buffer| == |initial| && s.challenge == 0
    ensures s.details.None? && s.rules.None? && s.players.None?
  {
    Session(initial, 0, None, None, None)
  }

  /** The receive: the datagram overwrites the front of the buffer, cut to
      the buffer's size; the bytes after it keep what they held, since the
      received length is discarded. */
  function Receive(buffer: Bytes, datagram: Bytes): (b: Bytes)
    ensures |b| == |buffer|
    ensures forall i :: 0 <= i < |b| ==> b[i] == if i < |datagram| then datagram[i] else buffer[i]
  {
    if |datagram| >= |buffer| then datagram[..|buffer|] else datagram + buffer[|datagram|..]
  }

  /** The assignment of the `switch` case that ran. */
  function Store(s: Session, reply: Reply): Session {
    match reply
    case ChallengeReply(v) => s.(challenge := v)
    case DetailsReply(d) => s.(details := Some(d))
    case RulesReply(r) => s.(rules := Some(r))
    case PlayersReply(p) => s.(players := Some(p))
  }

  /** The state after a call and what the call returned or threw. */
  datatype Outcome<T> = Outcome(session: Session, result: Result<T>)

  /** `process_response`. A receive error throws before anything changes; a
      datagram always lands in the buffer, and an exception after that
      leaves the challenge and every slot as they were. */
  function ProcessResponse(s: Session, incoming: Option<Bytes>, expected: int, strtod: StrtodFn): (o: Outcome<()>)
    ensures incoming.None? ==> o == Outcome(s, Err(Transport))
    ensures incoming.Some? ==> o.session.buffer == Receive(s.buffer, incoming.value)
    ensures o.result.Err? ==> o.session.(buffer := s.buffer) == s
    ensures incoming.Some? ==>
      var decoded := DecodeReply(Receive(s.buffer, incoming.value), expected, strtod);
      && (o.result.Ok? <==> decoded.Ok?)
      && (o.result.Err? ==> o.result.error == decoded.error)
    ensures o.result.Ok? ==>
      && incoming.Some?
      && var reply := DecodeReply(o.session.buffer, expected, strtod);
      && reply.Ok? && o.session == Store(s.(buffer := o.session.buffer), reply.value)
  {
    match incoming
    case None => Outcome(s, Err(Transport))
    case Some(datagram) =>
      var received := s.(buffer := Receive(s.buffer, datagram));
      match DecodeReply(received.buffer, expected, strtod)
      case Err(e) => Outcome(received, Err(e))
      case Ok(reply) => Outcome(Store(received, reply), Ok(()))
  }

  /** `do_challenge`: send `REQUEST_CHALLENGE`, throw if the send failed,
      then process a reply that must be a challenge. */
  function DoChallenge(s: Session, send: Bytes -> bool, incoming: Option<Bytes>, strtod: StrtodFn): (o: Outcome<()>)
    ensures !send(REQUEST_CHALLENGE) ==> o == Outcome(s, Err(Transport))
    ensures o.result.Ok? ==> o.session.details == s.details && o.session.rules == s.rules && o.session.players == s.players
  {
    if !send(REQUEST_CHALLENGE) then Outcome(s, Err(Transport))
    else ProcessResponse(s, incoming, PACKET_CHALLENGE, strtod)
  }

  /** `do_request(packet, request)`: sends the request and processes the
      reply; its body is not part of this model. */
  type Exchange = (Session, int, Bytes) -> Outcome<()>

  /** `request_details`: empty the slot, run the exchange, and throw when the
      slot is still empty; otherwise return what it holds. */
  function RequestDetails(s: Session, doRequest: Exchange): (o: Outcome<Details>)
    ensures var after := doRequest(s.(details := None), PACKET_DETAILS, REQUEST_DETAILS);
      && o.session == after.session
      && (o.result.Ok? <==> after.result.Ok? && after.session.details.Some?)
      && (o.result.Ok? ==> o.result.value == after.session.details.value)
      && (after.result.Ok? && after.session.details.None? ==> o.result == Err(NotProcessed))
      && (after.result.Err? ==> o.result == Err(after.result.error))
  {
    var after := doRequest(s.(details := None), PACKET_DETAILS, REQUEST_DETAILS);
    if after.result.Err? then Outcome(after.session, Err(after.result.error))
    else if after.session.details.None? then Outcome(after.session, Err(NotProcessed))
    else Outcome(after.session, Ok(after.session.details.value))
  }

  /** `request_rules`, the same for the rules slot. */
  function RequestRules(s: Session, doRequest: Exchange): (o: Outcome<Rules>)
    ensures var after := doRequest(s.(rules := None), PACKET_RULES, REQUEST_RULES);
      && o.session == after.session
      && (o.result.Ok? <==> after.result.Ok? && after.session.rules.Some?)
      && (o.result.Ok? ==> o.result.value == after.session.rules.value)
      && (after.result.Ok? && after.session.rules.None? ==> o.result == Err(NotProcessed))
      && (after.result.Err? ==> o.result == Err(after.result.error))
  {
    var after := doRequest(s.(rules := None), PACKET_RULES, REQUEST_RULES);
    if after.result.Err? then Outcome(after.session, Err(after.result.error))
    else if after.session.rules.None? then Outcome(after.session, Err(NotProcessed))
    else Outcome(after.session, Ok(after.session.rules.value))
  }

  /** `request_players`, the same for the players slot. */
  function RequestPlayers(s: Session, doRequest: Exchange): (o: Outcome<Players>)
    ensures var after := doRequest(s.(players := None), PACKET_PLAYERS, REQUEST_PLAYERS);
      && o.session == after.session
      && (o.result.Ok? <==> after.result.Ok? && after.session.players.Some?)
      && (o.result.Ok? ==> o.result.value == after.session.players.value)
      && (after.result.Ok? && after.session.players.None? ==> o.result == Err(NotProcessed))
      && (after.result.Err? ==> o.result == Err(after.result.error))
  {
    var after := doRequest(s.(players := None), PACKET_PLAYERS, REQUEST_PLAYERS);
    if after.result.Err? then Outcome(after.session, Err(after.result.error))
    else if after.session.players.None? then Outcome(after.session, Err(NotProcessed))
    else Outcome(after.session, Ok(after.session.players.value))
  }

  // ---------------------------------------------------------------------
  // What a server sends.

  /** The bytes of a reply's body. */
  function EncodeBody(reply: Reply): Bytes {
    match reply
    case ChallengeReply(v) => EncodeInt(v, U32)
    case DetailsReply(d) => EncodeDetails(d)
    case RulesReply(r) => EncodeRules(r)
    case PlayersReply(p) => EncodePlayers(p)
  }

  /** The header bytes for a type: the magic -1, then the type byte. */
  function EncodeHeader(packetType: int): (bs: Bytes)
    ensures |bs| == HEADER_SIZE
  {
    EncodeInt(MAGIC, U32) + EncodeInt(packetType, U8)
  }

  /** The datagram a server sends for a reply. */
  function EncodeReply(reply: Reply): Bytes {
    EncodeHeader(TagOf(reply)) + EncodeBody(reply)
  }

  /** A reply whose fields hold values of their C++ types and whose records
      are well-formed. */
  predicate ValidReply(reply: Reply, strtod: StrtodFn) {
    match reply
    case ChallengeReply(v) => -TwoTo31 <= v < TwoTo31
    case DetailsReply(d) => KfDetails.WellFormed(d) && Derived(d)
    case RulesReply(r) => ValidRules(r, strtod)
    case PlayersReply(p) => ValidRoster(p)
  }
}

/** Round trips for the reply datagram, the receive, and the client's
    calls. */
module KfClientProofs {
  import opened Wrappers
  import opened Bytes
  import opened KfBuffer
  import opened KfDetails
  import opened KfDetailsProofs
  import opened KfRules
  import opened KfRulesProofs
  import opened KfPlayers
  import opened KfPlayersProofs
  import opened KfClient

  /** Round trip for the header, followed by `rest`. */
  lemma HeaderStep(c: Cursor, packetType: int, rest: Bytes)
    requires -0x80 <= packetType < 0x80
    requires At(c, EncodeHeader(packetType) + rest)
    ensures ReadHeader(c) == Ok((Header(MAGIC, packetType), Cursor(c.buf, c.pos + HEADER_SIZE)))
    ensures At(Cursor(c.buf, c.pos + HEADER_SIZE), rest)
  {
    hide ConsumeInt32, ConsumeChar, At, EncodeInt;
    var m, t := EncodeInt(MAGIC, U32), EncodeInt(packetType, U8);
    assert EncodeHeader(packetType) + rest == m + (t + rest);
    AtSplit(c, m, t + rest);
    var c1: Cursor := Cursor(c.buf, c.pos + U32);
    AtSplit(c1, t, rest);
    ConsumeInt32Encoded(c, MAGIC);
    ConsumeCharEncoded(c1, packetType);
  }

  /** The magic reads as -1 exactly when its four bytes are 0xFF, whichever
      the host's byte order. */
  lemma MagicIsAllOnes(c: Cursor)
    requires ReadHeader(c).Ok?
    ensures ReadHeader(c).value.0.magic == MAGIC <==> At(c, REQUEST_PREFIX)
  {
    var bs := c.buf[c.pos..c.pos + U32];
    MinusOneIsAllOnes(bs);
    Pow256Widths();
  }

  /** Round trip for the body of each reply. */
  lemma BodyRoundTrip(c: Cursor, reply: Reply, strtod: StrtodFn)
    requires ValidReply(reply, strtod)
    requires At(c, EncodeBody(reply))
    ensures DecodeBody(TagOf(reply), c, strtod) == Ok(reply)
  {
    match reply
    case ChallengeReply(v) => ChallengeRoundTrip(c, v, strtod);
    case DetailsReply(d) =>
      hide DecodeDetails, DecodeRules, DecodePlayers, ConsumeUnsigned, At;
      DetailsRoundTrip(c, d, EncodeBool(d.passwordSet));
    case RulesReply(r) =>
      hide DecodeDetails, DecodeRules, DecodePlayers, ConsumeUnsigned, At;
      RulesRoundTrip(c, r, strtod);
    case PlayersReply(p) =>
      hide DecodeDetails, DecodeRules, DecodePlayers, ConsumeUnsigned, At;
      PlayersRoundTrip(c, p);
  }

  /** The challenge travels as the four bytes of its `std::int32_t` and is
      read back through `std::uint32_t`. */
  lemma ChallengeRoundTrip(c: Cursor, v: int, strtod: StrtodFn)
    requires -TwoTo31 <= v < TwoTo31
    requires At(c, EncodeInt(v, U32))
    ensures DecodeBody(PACKET_CHALLENGE, c, strtod) == Ok(ChallengeReply(v))
  {
    hide DecodeDetails, DecodeRules, DecodePlayers, At;
    Pow256Widths();
    Int32Residue(v);
    var u := v % TwoTo32;
    assert EncodeInt(u, U32) == EncodeInt(v, U32);
    ConsumeUnsignedEncoded(c, U32, u);
    assert NarrowToInt32(u) == v;
  }

  /** `DecodeReply` when the header is the magic and a tag the caller
      accepts. */
  lemma DecodeReplyOf(buf: Bytes, expected: int, strtod: StrtodFn, packetType: int)
    requires expected == ANY_PACKET || expected == packetType
    requires HEADER_SIZE <= |buf|
    requires ReadHeader(Cursor(buf, 0)) == Ok((Header(MAGIC, packetType), Cursor(buf, HEADER_SIZE)))
    ensures DecodeReply(buf, expected, strtod) == DecodeBody(packetType, Cursor(buf, HEADER_SIZE), strtod)
  {
    hide ReadHeader, DecodeBody;
  }

  /** Round trip for the datagram: a server's reply at the front of the
      buffer is read back whatever follows it, when its type is the expected
      one or the wildcard was expected. */
  lemma ReplyRoundTrip(buf: Bytes, reply: Reply, expected: int, strtod: StrtodFn)
    requires ValidReply(reply, strtod)
    requires expected == ANY_PACKET || expected == TagOf(reply)
    requires At(Cursor(buf, 0), EncodeReply(reply))
    ensures DecodeReply(buf, expected, strtod) == Ok(reply)
  {
    hide DecodeReply, DecodeBody, ReadHeader, At, EncodeHeader, EncodeBody, ValidReply;
    var c: Cursor := Cursor(buf, 0);
    HeaderStep(c, TagOf(reply), EncodeBody(reply));
    var body: Cursor := Cursor(buf, HEADER_SIZE);
    BodyRoundTrip(body, reply, strtod);
    DecodeReplyOf(buf, expected, strtod, TagOf(reply));
  }

  /** A well-formed reply of one type is refused by a caller expecting
      another, before its body is looked at. */
  lemma OtherReplyRefused(buf: Bytes, reply: Reply, expected: int, strtod: StrtodFn)
    requires expected != ANY_PACKET && expected != TagOf(reply)
    requires At(Cursor(buf, 0), EncodeHeader(TagOf(reply)))
    ensures DecodeReply(buf, expected, strtod) == Err(UnexpectedPacket)
  {
    hide DecodeBody, ReadHeader, At, EncodeHeader;
    assert EncodeHeader(TagOf(reply)) + [] == EncodeHeader(TagOf(reply));
    HeaderStep(Cursor(buf, 0), TagOf(reply), []);
  }

  /** The header sits at the front of a reply's bytes. */
  lemma HeaderAtFront(c: Cursor, reply: Reply)
    requires At(c, EncodeReply(reply))
    ensures At(c, EncodeHeader(TagOf(reply)))
  {
    AtSplit(c, EncodeHeader(TagOf(reply)), EncodeBody(reply));
  }

  /** A challenge reply takes nine bytes, and is valid when the challenge is
      an `std::int32_t`. */
  lemma ChallengeReplyFacts(v: int, strtod: StrtodFn)
    ensures |EncodeReply(ChallengeReply(v))| == HEADER_SIZE + U32
    ensures ValidReply(ChallengeReply(v), strtod) <==> -TwoTo31 <= v < TwoTo31
  {
  }

  /** Receiving the bytes the buffer already starts with changes nothing. */
  lemma ReceiveSamePrefix(buffer: Bytes, datagram: Bytes)
    requires At(Cursor(buffer, 0), datagram)
    ensures Receive(buffer, datagram) == buffer
  {
    if |datagram| < |buffer| {
      assert buffer == datagram + buffer[|datagram|..];
    }
  }

  /** The other direction for the header: a header that passes the magic
      check sat in the buffer as the header bytes of its type. */
  lemma HeaderBytes(c: Cursor)
    requires ReadHeader(c).Ok? && ReadHeader(c).value.0.magic == MAGIC
    ensures At(c, EncodeHeader(ReadHeader(c).value.0.packetType))
  {
    var c1: Cursor := Cursor(c.buf, c.pos + U32);
    ConsumeInt32Bytes(c);
    ConsumeCharBytes(c1);
    AtJoin(c, EncodeInt(MAGIC, U32), EncodeInt(ReadHeader(c).value.0.packetType, U8));
  }

  /** The challenge read through `std::uint32_t` and stored in `std::int32_t`
      sat in the buffer as the four bytes of the stored value. */
  lemma ChallengeBytes(c: Cursor, strtod: StrtodFn)
    requires DecodeBody(PACKET_CHALLENGE, c, strtod).Ok?
    ensures At(c, EncodeBody(DecodeBody(PACKET_CHALLENGE, c, strtod).value))
  {
    hide DecodeDetails, DecodeRules, DecodePlayers;
    Pow256Widths();
    var u := ConsumeUnsigned(c, U32).value.0;
    ConsumeUnsignedBytes(c, U32);
    ModSmall(u, TwoTo32);
    assert EncodeInt(NarrowToInt32(u), U32) == EncodeInt(u, U32);
  }

  /** Which decoder produced an accepted body. */
  lemma DecodeBodyOf(packetType: int, c: Cursor, strtod: StrtodFn)
    requires DecodeBody(packetType, c, strtod).Ok?
    ensures packetType in TAGS
    ensures packetType == PACKET_DETAILS ==>
      DecodeDetails(c).Ok? && DecodeBody(packetType, c, strtod).value == DetailsReply(DecodeDetails(c).value.0)
    ensures packetType == PACKET_RULES ==>
      DecodeRules(c, strtod).Ok? && DecodeBody(packetType, c, strtod).value == RulesReply(DecodeRules(c, strtod).value.0)
    ensures packetType == PACKET_PLAYERS ==>
      DecodePlayers(c).Ok? && DecodeBody(packetType, c, strtod).value == PlayersReply(DecodePlayers(c).value.0)
  {
    hide DecodeDetails, DecodeRules, DecodePlayers, ConsumeUnsigned;
  }

  /** Which decoder refused a body: the exception of a record decoder
      escapes unchanged, and a challenge that does not fit is the range
      error. */
  lemma DecodeBodyFails(packetType: int, c: Cursor, strtod: StrtodFn)
    ensures var r := DecodeBody(packetType, c, strtod);
      && (packetType == PACKET_CHALLENGE ==>
            && (r.Err? <==> ConsumeUnsigned(c, U32).Err?)
            && (r.Err? ==> r.error == OutsideBuffer))
      && (packetType == PACKET_DETAILS ==>
            && (r.Err? <==> DecodeDetails(c).Err?)
            && (r.Err? ==> r.error == DecodeDetails(c).error))
      && (packetType == PACKET_RULES ==>
            && (r.Err? <==> DecodeRules(c, strtod).Err?)
            && (r.Err? ==> r.error == DecodeRules(c, strtod).error))
      && (packetType == PACKET_PLAYERS ==>
            && (r.Err? <==> DecodePlayers(c).Err?)
            && (r.Err? ==> r.error == DecodePlayers(c).error))
  {
    hide DecodeDetails, DecodeRules, DecodePlayers;
  }

  /** The other direction for the body: a decoded body sat in the buffer as
      exactly its encoding, with the details' password byte as found. */
  lemma BodyBytes(packetType: int, c: Cursor, strtod: StrtodFn)
    requires DecodeBody(packetType, c, strtod).Ok?
    ensures var reply := DecodeBody(packetType, c, strtod).value;
      && (!reply.DetailsReply? ==> At(c, EncodeBody(reply)))
      && (reply.DetailsReply? ==>
            var at := c.pos + PasswordOffset(FrontOf(reply.details));
            && at < |c.buf|
            && FlagFor([c.buf[at]], reply.details.passwordSet)
            && At(c, EncodeDetailsWith(reply.details, [c.buf[at]])))
  {
    hide DecodeBody, DecodeDetails, DecodeRules, DecodePlayers, At, EncodeDetailsWith, EncodeRules, EncodePlayers;
    DecodeBodyOf(packetType, c, strtod);
    if packetType == PACKET_CHALLENGE {
      ChallengeBytes(c, strtod);
    } else if packetType == PACKET_DETAILS {
      DetailsBytes(c);
    } else if packetType == PACKET_RULES {
      RulesBytes(c, strtod);
    } else {
      PlayersBytes(c);
    }
  }

  /** A reply `DecodeReply` accepted passed the magic check, and its body
      was decoded by the branch of its type byte. */
  lemma DecodeReplyParts(buf: Bytes, expected: int, strtod: StrtodFn)
    requires DecodeReply(buf, expected, strtod).Ok?
    ensures ReadHeader(Cursor(buf, 0)).Ok?
    ensures var h := ReadHeader(Cursor(buf, 0)).value.0;
      && h.magic == MAGIC
      && DecodeReply(buf, expected, strtod) == DecodeBody(h.packetType, Cursor(buf, HEADER_SIZE), strtod)
  {
    hide ReadHeader, DecodeBody;
  }

  /** The other direction for the datagram: whatever reply is accepted, the
      buffer starts with its header and then exactly its body's encoding
      (for the details, with the password byte as found). */
  lemma ReplyBytes(buf: Bytes, expected: int, strtod: StrtodFn)
    requires DecodeReply(buf, expected, strtod).Ok?
    ensures var reply := DecodeReply(buf, expected, strtod).value;
      && At(Cursor(buf, 0), EncodeHeader(TagOf(reply)))
      && (!reply.DetailsReply? ==> At(Cursor(buf, 0), EncodeReply(reply)))
      && (reply.DetailsReply? ==>
            var at := HEADER_SIZE + PasswordOffset(FrontOf(reply.details));
            && at < |buf|
            && FlagFor([buf[at]], reply.details.passwordSet)
            && At(Cursor(buf, HEADER_SIZE), EncodeDetailsWith(reply.details, [buf[at]])))
  {
    hide DecodeReply, DecodeBody, ReadHeader, At, EncodeHeader, EncodeBody, EncodeDetailsWith;
    DecodeReplyParts(buf, expected, strtod);
    var c: Cursor := Cursor(buf, 0);
    var h := ReadHeader(c).value.0;
    var body: Cursor := Cursor(buf, HEADER_SIZE);
    HeaderBytes(c);
    BodyBytes(h.packetType, body, strtod);
    var reply := DecodeReply(buf, expected, strtod).value;
    if !reply.DetailsReply? {
      AtJoin(c, EncodeHeader(TagOf(reply)), EncodeBody(reply));
    }
  }

  /** The datagram sits at the front of the buffer after the receive when it
      fits. */
  lemma ReceivedAtFront(buffer: Bytes, datagram: Bytes)
    requires |datagram| <= |buffer|
    ensures At(Cursor(Receive(buffer, datagram), 0), datagram)
  {
    var b := Receive(buffer, datagram);
    assert b[..|datagram|] == datagram;
  }

  /** Round trip for `process_response`: a reply that fits the buffer and
      has the expected type is stored in its slot, and nothing else but the
      buffer changes. */
  lemma ProcessReplyRoundTrip(s: Session, reply: Reply, expected: int, strtod: StrtodFn)
    requires ValidReply(reply, strtod)
    requires expected == ANY_PACKET || expected == TagOf(reply)
    requires |EncodeReply(reply)| <= |s.buffer|
    ensures var buffer := Receive(s.buffer, EncodeReply(reply));
      ProcessResponse(s, Some(EncodeReply(reply)), expected, strtod) == Outcome(Store(s.(buffer := buffer), reply), Ok(()))
  {
    hide DecodeReply, ValidReply, EncodeReply, Receive;
    ReceivedAtFront(s.buffer, EncodeReply(reply));
    ReplyRoundTrip(Receive(s.buffer, EncodeReply(reply)), reply, expected, strtod);
  }

  /** `do_challenge` stores the challenge a server sends back, and leaves
      every record slot alone. */
  lemma ChallengeStored(s: Session, send: Bytes -> bool, v: int, strtod: StrtodFn)
    requires send(REQUEST_CHALLENGE)
    requires -TwoTo31 <= v < TwoTo31
    requires HEADER_SIZE + U32 <= |s.buffer|
    ensures var o := DoChallenge(s, send, Some(EncodeReply(ChallengeReply(v))), strtod);
      o.result.Ok? && o.session.challenge == v
      && o.session.(buffer := s.buffer) == s.(challenge := v)
  {
    hide ProcessResponse, EncodeReply, ValidReply;
    ChallengeReplyFacts(v, strtod);
    ProcessReplyRoundTrip(s, ChallengeReply(v), PACKET_CHALLENGE, strtod);
  }

  /** `do_challenge` refuses a record reply: it throws and changes nothing
      but the buffer. */
  lemma ChallengeRefusesRecords(s: Session, send: Bytes -> bool, reply: Reply, strtod: StrtodFn)
    requires send(REQUEST_CHALLENGE)
    requires !reply.ChallengeReply?
    requires |EncodeReply(reply)| <= |s.buffer|
    ensures var o := DoChallenge(s, send, Some(EncodeReply(reply)), strtod);
      o.result == Err(UnexpectedPacket) && o.session.(buffer := s.buffer) == s
  {
    hide DecodeReply, EncodeReply, Receive, EncodeBody;
    var buffer := Receive(s.buffer, EncodeReply(reply));
    ReceivedAtFront(s.buffer, EncodeReply(reply));
    HeaderAtFront(Cursor(buffer, 0), reply);
    OtherReplyRefused(buffer, reply, PACKET_CHALLENGE, strtod);
  }

  /** The received length is discarded: a datagram holding only the
      challenge header is completed by the bytes an earlier challenge reply
      left in the buffer, and that old challenge is accepted again. */
  lemma StaleChallengeAccepted(s: Session, v: int, strtod: StrtodFn)
    requires -TwoTo31 <= v < TwoTo31
    requires At(Cursor(s.buffer, 0), EncodeReply(ChallengeReply(v)))
    ensures ProcessResponse(s, Some(EncodeHeader(PACKET_CHALLENGE)), PACKET_CHALLENGE, strtod) == Outcome(s.(challenge := v), Ok(()))
  {
    hide DecodeReply, At, EncodeReply, ValidReply;
    var header := EncodeHeader(PACKET_CHALLENGE);
    HeaderAtFront(Cursor(s.buffer, 0), ChallengeReply(v));
    ReceiveSamePrefix(s.buffer, header);
    ChallengeReplyFacts(v, strtod);
    ReplyRoundTrip(s.buffer, ChallengeReply(v), PACKET_CHALLENGE, strtod);
  }

  /** A `request_*` never returns the record its slot held before the call:
      two sessions that differ only in that slot give the same outcome. */
  lemma RequestIgnoresOldRecord(s: Session, t: Session, doRequest: Exchange)
    ensures s.(details := None) == t.(details := None) ==> RequestDetails(s, doRequest) == RequestDetails(t, doRequest)
    ensures s.(rules := None) == t.(rules := None) ==> RequestRules(s, doRequest) == RequestRules(t, doRequest)
    ensures s.(players := None) == t.(players := None) ==> RequestPlayers(s, doRequest) == RequestPlayers(t, doRequest)
  {
  }

  /** The four tags are distinct, and none is the wildcard. */
  lemma TagsDistinct()
    ensures |TAGS| == 4 && ANY_PACKET !in TAGS
  {
  }

  /** Every request starts with the four 0xFF bytes, then its type byte:
      'U' for the challenge and the players, 'T' for the details, 'V' for
      the rules. The details request ends with the NUL of its C string, and
      the challenge request carries the challenge -1. */
  lemma RequestTables()
    ensures REQUEST_PREFIX == EncodeInt(MAGIC, U32)
    ensures REQUEST_CHALLENGE[..U32] == REQUEST_DETAILS[..U32] == REQUEST_PLAYERS[..U32] == REQUEST_RULES[..U32] == REQUEST_PREFIX
    ensures REQUEST_CHALLENGE[U32] == REQUEST_PLAYERS[U32] == 0x55
    ensures REQUEST_DETAILS[U32] == 0x54 && REQUEST_RULES[U32] == 0x56
    ensures REQUEST_CHALLENGE[U32 + U8..] == EncodeInt(MAGIC, U32)
    ensures |REQUEST_DETAILS| == 25 && NulFree(REQUEST_DETAILS[U32 + U8..24]) && REQUEST_DETAILS[24] == NUL
  {
    Pow256Widths();
    forall i | U32 + U8 <= i < 24
      ensures REQUEST_DETAILS[i] != NUL
    {
    }
  }

  /** A fresh client with the default capacity takes in any reply of at most
      2048 bytes whole: the reply is stored, and a longer one is cut to the
      first 2048 bytes. */
  lemma CapacityRoundTrip(initial: Bytes, reply: Reply, strtod: StrtodFn)
    requires |initial| == RECEIVE_CAPACITY
    requires ValidReply(reply, strtod)
    ensures |EncodeReply(reply)| <= RECEIVE_CAPACITY ==>
      ProcessResponse(NewSession(initial), Some(EncodeReply(reply)), TagOf(reply), strtod).result == Ok(())
    ensures RECEIVE_CAPACITY < |EncodeReply(reply)| ==>
      ProcessResponse(NewSession(initial), Some(EncodeReply(reply)), TagOf(reply), strtod).session.buffer == EncodeReply(reply)[..RECEIVE_CAPACITY]
  {
    hide ProcessResponse, EncodeReply, ValidReply;
    if |EncodeReply(reply)| <= RECEIVE_CAPACITY {
      ProcessReplyRoundTrip(NewSession(initial), reply, TagOf(reply), strtod);
    } else {
      var datagram := EncodeReply(reply);
      assert Receive(initial, datagram) == datagram[..RECEIVE_CAPACITY];
    }
  }
}

=== FILE: kfdetails.dfy ===
/** The server-details reply `kfdetails`: eight reads in a fixed order, then
    the "additional" string scanned into a map, then the two wave counters
    taken from its keys "d" and "e". The groups below follow the
    constructor's `consume` calls; a call with several arguments reads them
    left to right. */
module KfDetails {
  import opened Wrappers
  import opened Bytes
  import opened KfBuffer
  import opened Conversions
  import Additional

  /** The four strings of one `consume` call: hostname, map, game_dir,
      game_description. */
  datatype Names = Names(hostname: Bytes, mapName: Bytes, gameDir: Bytes, gameDescription: Bytes)

  /** The six numbers of one `consume` call: steam_app_id (16 bits), then
      player_count, player_cap, unknown1, unknown2, operating_system (8 bits
      each). */
  datatype Counts = Counts(steamAppId: int, playerCount: int, playerCap: int, unknown1: int, unknown2: int, operatingSystem: int)

  /** The three 32-bit numbers of one `consume` call: unknown4..6. */
  datatype Unknowns = Unknowns(unknown4: int, unknown5: int, unknown6: int)

  /** The record; numeric fields hold the values of their C++ types. */
  datatype Details = Details(
    protocol: int,
    names: Names,
    counts: Counts,
    passwordSet: bool,
    unknown3: int,
    version: Bytes,
    unknowns: Unknowns,
    additionalString: Bytes,
    additional: Additional.Pairs,
    wavesTotal: int,
    wavesCurrent: int)

  /** What the first four reads fill: protocol, the names, the counts and
      password_set. */
  datatype Front = Front(protocol: int, names: Names, counts: Counts, passwordSet: bool)

  /** What the last four reads fill: unknown3, the version, unknown4..6 and
      the additional string. */
  datatype Back = Back(unknown3: int, version: Bytes, unknowns: Unknowns, additionalString: Bytes)

  const KEY_D: Bytes := [0x64]   // "d"
  const KEY_E: Bytes := [0x65]   // "e"

  /** Bytes of the `Counts` and `Unknowns` groups on the wire. */
  const COUNTS_SIZE: nat := U16 + 5 * U8
  const UNKNOWNS_SIZE: nat := 3 * U32

  /** `version` is read with `consume_string(version, 4)`. */
  const VERSION_SIZE: nat := 4

  predicate NamesWellFormed(n: Names) {
    NulFree(n.hostname) && NulFree(n.mapName) && NulFree(n.gameDir) && NulFree(n.gameDescription)
  }

  predicate CountsWellFormed(k: Counts) {
    && 0 <= k.steamAppId < 0x1_0000
    && 0 <= k.playerCount < 0x100 && 0 <= k.playerCap < 0x100
    && 0 <= k.unknown1 < 0x100 && 0 <= k.unknown2 < 0x100
    && 0 <= k.operatingSystem < 0x100
  }

  predicate UnknownsWellFormed(u: Unknowns) {
    0 <= u.unknown4 < TwoTo32 && 0 <= u.unknown5 < TwoTo32 && 0 <= u.unknown6 < TwoTo32
  }

  predicate FrontWellFormed(f: Front) {
    0 <= f.protocol < 0x100 && NamesWellFormed(f.names) && CountsWellFormed(f.counts)
  }

  predicate BackWellFormed(b: Back) {
    0 <= b.unknown3 < 0x100 && |b.version| == VERSION_SIZE && UnknownsWellFormed(b.unknowns) && NulFree(b.additionalString)
  }

  function FrontOf(d: Details): Front {
    Front(d.protocol, d.names, d.counts, d.passwordSet)
  }

  function BackOf(d: Details): Back {
    Back(d.unknown3, d.version, d.unknowns, d.additionalString)
  }

  /** Every wire field holds a value of its C++ type: the strings read as C
      strings have no NUL and the version has exactly 4 bytes. */
  predicate WellFormed(d: Details) {
    FrontWellFormed(FrontOf(d)) && BackWellFormed(BackOf(d))
  }

  /** `consume(hostname, map, game_dir, game_description)`. */
  function DecodeNames(c: Cursor): (r: Result<(Names, Cursor)>)
    ensures r.Err? ==> r.error == OutsideBuffer
    ensures r.Ok? ==> NamesWellFormed(r.value.0)
    ensures r.Ok? ==> r.value.1 == Cursor(c.buf, c.pos + NamesSize(r.value.0))
  {
    var (hostname, c1) :- ConsumeStringNull(c);
    var (mapName, c2) :- ConsumeStringNull(c1);
    var (gameDir, c3) :- ConsumeStringNull(c2);
    var (gameDescription, c4) :- ConsumeStringNull(c3);
    Ok((Names(hostname, mapName, gameDir, gameDescription), c4))
  }

  /** Bytes of the `Names` group on the wire: four C strings. */
  function NamesSize(n: Names): nat {
    |n.hostname| + |n.mapName| + |n.gameDir| + |n.gameDescription| + 4
  }

  function EncodeNames(n: Names): (bs: Bytes)
    ensures |bs| == NamesSize(n)
  {
    EncodeCString(n.hostname) + (EncodeCString(n.mapName) + (EncodeCString(n.gameDir) + EncodeCString(n.gameDescription)))
  }

  /** `consume(steam_app_id, player_count, player_cap, unknown1, unknown2,
      operating_system)`. */
  function DecodeCounts(c: Cursor): (r: Result<(Counts, Cursor)>)
    ensures r.Ok? <==> COUNTS_SIZE <= |c.buf| - c.pos
    ensures r.Err? ==> r.error == OutsideBuffer
    ensures r.Ok? ==> CountsWellFormed(r.value.0)
    ensures r.Ok? ==> r.value.1 == Cursor(c.buf, c.pos + COUNTS_SIZE)
  {
    Pow256Widths();
    var (steamAppId, c1) :- ConsumeUnsigned(c, U16);
    var (playerCount, c2) :- ConsumeUnsigned(c1, U8);
    var (playerCap, c3) :- ConsumeUnsigned(c2, U8);
    var (unknown1, c4) :- ConsumeUnsigned(c3, U8);
    var (unknown2, c5) :- ConsumeUnsigned(c4, U8);
    var (operatingSystem, c6) :- ConsumeUnsigned(c5, U8);
    Ok((Counts(steamAppId, playerCount, playerCap, unknown1, unknown2, operatingSystem), c6))
  }

  function EncodeCounts(k: Counts): (bs: Bytes)
    ensures |bs| == COUNTS_SIZE
  {
    EncodeInt(k.steamAppId, U16) + (EncodeInt(k.playerCount, U8) + (EncodeInt(k.playerCap, U8)
    + (EncodeInt(k.unknown1, U8) + (EncodeInt(k.unknown2, U8) + EncodeInt(k.operatingSystem, U8)))))
  }

  /** `consume(unknown4, unknown5, unknown6)`. */
  function DecodeUnknowns(c: Cursor): (r: Result<(Unknowns, Cursor)>)
    ensures r.Ok? <==> UNKNOWNS_SIZE <= |c.buf| - c.pos
    ensures r.Err? ==> r.error == OutsideBuffer
    ensures r.Ok? ==> UnknownsWellFormed(r.value.0)
    ensures r.Ok? ==> r.value.1 == Cursor(c.buf, c.pos + UNKNOWNS_SIZE)
  {
    Pow256Widths();
    var (unknown4, c1) :- ConsumeUnsigned(c, U32);
    var (unknown5, c2) :- ConsumeUnsigned(c1, U32);
    var (unknown6, c3) :- ConsumeUnsigned(c2, U32);
    Ok((Unknowns(unknown4, unknown5, unknown6), c3))
  }

  function EncodeUnknowns(u: Unknowns): (bs: Bytes)
    ensures |bs| == UNKNOWNS_SIZE
  {
    EncodeInt(u.unknown4, U32) + (EncodeInt(u.unknown5, U32) + EncodeInt(u.unknown6, U32))
  }

  /** `consume(protocol)`, `consume(hostname, ...)`, `consume(steam_app_id,
      ...)` and the `bool` cast of the next byte. */
  function ReadFront(c: Cursor): (r: Result<(Front, Cursor)>)
    ensures r.Err? ==> r.error == OutsideBuffer
    ensures r.Ok? ==> FrontWellFormed(r.value.0)
    ensures r.Ok? ==> r.value.1 == Cursor(c.buf, c.pos + FrontSize(r.value.0))
  {
    Pow256Widths();
    var (protocol, c1) :- ConsumeUnsigned(c, U8);
    var (names, c2) :- DecodeNames(c1);
    var (counts, c3) :- DecodeCounts(c2);
    var (passwordSet, c4) :- ConsumeBool(c3);
    Ok((Front(protocol, names, counts, passwordSet), c4))
  }

  /** `consume(unknown3)`, `consume_string(version, 4)`, `consume(unknown4,
      unknown5, unknown6)` and `consume_string_null(additional_string)`. */
  function ReadBack(c: Cursor): (r: Result<(Back, Cursor)>)
    ensures r.Err? ==> r.error == OutsideBuffer
    ensures r.Ok? ==> BackWellFormed(r.value.0)
    ensures r.Ok? ==> r.value.1 == Cursor(c.buf, c.pos + BackSize(r.value.0))
  {
    Pow256Widths();
    var (unknown3, c1) :- ConsumeUnsigned(c, U8);
    var (version, c2) :- ConsumeString(c1, VERSION_SIZE);
    var (unknowns, c3) :- DecodeUnknowns(c2);
    var (additionalString, c4) :- ConsumeStringNull(c3);
    Ok((Back(unknown3, version, unknowns, additionalString), c4))
  }

  /** The record the reads fill: the map empty and both wave counters at
      their initializer 0, as the scanner has not run yet. */
  function Assemble(f: Front, b: Back): Details {
    Details(f.protocol, f.names, f.counts, f.passwordSet, b.unknown3, b.version, b.unknowns, b.additionalString, map[], 0, 0)
  }

  /** The eight reads of the constructor, in order. */
  function ReadFields(c: Cursor): (r: Result<(Details, Cursor)>)
    ensures r.Err? ==> r.error == OutsideBuffer
    ensures r.Ok? ==> WellFormed(r.value.0)
    ensures r.Ok? ==> r.value.0.additional == map[] && r.value.0.wavesTotal == 0 && r.value.0.wavesCurrent == 0
    ensures r.Ok? ==> r.value.1 == Cursor(c.buf, c.pos + DetailsSize(r.value.0))
  {
    var (front, c4) :- ReadFront(c);
    var (back, c8) :- ReadBack(c4);
    assert FrontOf(Assemble(front, back)) == front && BackOf(Assemble(front, back)) == back;
    Ok((Assemble(front, back), c8))
  }

  /** A wave counter: `std::stol` of the value at `key` narrowed to
      `std::int32_t`, or the initializer 0 when the key is absent. */
  function WaveCounter(additional: Additional.Pairs, key: Bytes): (r: Result<int>)
    ensures key !in additional ==> r == Ok(0)
    ensures key in additional ==> (r.Ok? <==> Stol(additional[key]).Ok?)
    ensures key in additional && r.Ok? ==> r.value == NarrowToInt32(Stol(additional[key]).value)
    ensures r.Err? ==> key in additional && r == Err(Stol(additional[key]).error)
    ensures r.Ok? ==> -TwoTo31 <= r.value < TwoTo31
  {
    if key in additional then
      var n :- Stol(additional[key]);
      Ok(NarrowToInt32(n))
    else Ok(0)
  }

  /** The derived fields agree with the additional string. */
  predicate Derived(d: Details) {
    && d.additional == Additional.Parse(d.additionalString)
    && WaveCounter(d.additional, KEY_D) == Ok(d.wavesTotal)
    && WaveCounter(d.additional, KEY_E) == Ok(d.wavesCurrent)
  }

  /** The `kfdetails` constructor: the reads, then the scanner over the
      additional string, then "d" and then "e" converted. A read that throws
      ends it with `std::range_error`; a conversion that throws ends it with
      the exception `std::stol` raised. */
  function DecodeDetails(c: Cursor): (r: Result<(Details, Cursor)>)
    ensures r.Ok? ==> WellFormed(r.value.0) && Derived(r.value.0)
    ensures r.Ok? ==> r.value.1 == Cursor(c.buf, c.pos + DetailsSize(r.value.0))
    ensures ReadFields(c).Err? ==> r == Err(OutsideBuffer)
    ensures r.Err? && r.error != OutsideBuffer ==> r.error in {InvalidArgument, OutOfRange}
    ensures ReadFields(c).Ok? ==>
      var m := Additional.Parse(ReadFields(c).value.0.additionalString);
      (r.Ok? <==> WaveCounter(m, KEY_D).Ok? && WaveCounter(m, KEY_E).Ok?)
    ensures ReadFields(c).Ok? && r.Err? ==>
      var m := Additional.Parse(ReadFields(c).value.0.additionalString);
      r.error == (if WaveCounter(m, KEY_D).Err? then WaveCounter(m, KEY_D).error else WaveCounter(m, KEY_E).error)
  {
    var (fields, end) :- ReadFields(c);
    var additional := Additional.Parse(fields.additionalString);
    var wavesTotal :- WaveCounter(additional, KEY_D);
    var wavesCurrent :- WaveCounter(additional, KEY_E);
    Ok((fields.(additional := additional, wavesTotal := wavesTotal, wavesCurrent := wavesCurrent), end))
  }

  /** `flag` is a single byte the `bool` cast turns into `b`. */
  predicate FlagFor(flag: Bytes, b: bool) {
    |flag| == 1 && (flag[0] != 0 <==> b)
  }

  /** The bytes of the first four reads, with `flag` as the byte of
      `password_set`. */
  function EncodeFront(f: Front, flag: Bytes): Bytes {
    EncodeInt(f.protocol, U8) + (EncodeNames(f.names) + (EncodeCounts(f.counts) + flag))
  }

  /** The bytes of the last four reads. */
  function EncodeBack(b: Back): Bytes {
    EncodeInt(b.unknown3, U8) + (b.version + (EncodeUnknowns(b.unknowns) + EncodeCString(b.additionalString)))
  }

  /** The reply bytes a server sends for `d`, with `flag` as the byte of
      `password_set`. */
  function EncodeDetailsWith(d: Details, flag: Bytes): Bytes {
    EncodeFront(FrontOf(d), flag) + EncodeBack(BackOf(d))
  }

  /** The reply bytes with `password_set` written as 0 or 1. */
  function EncodeDetails(d: Details): Bytes {
    EncodeDetailsWith(d, EncodeBool(d.passwordSet))
  }

  /** Where the `password_set` byte sits, counted from the first byte. */
  function PasswordOffset(f: Front): nat {
    U8 + NamesSize(f.names) + COUNTS_SIZE
  }

  function FrontSize(f: Front): nat {
    PasswordOffset(f) + U8
  }

  function BackSize(b: Back): nat {
    U8 + VERSION_SIZE + UNKNOWNS_SIZE + |b.additionalString| + 1
  }

  /** Bytes of the whole reply body. */
  function DetailsSize(d: Details): nat {
    FrontSize(FrontOf(d)) + BackSize(BackOf(d))
  }
}

module KfDetailsProofs {
  import opened Wrappers
  import opened Bytes
  import opened KfBuffer
  import opened Conversions
  import Additional
  import opened KfDetails

  lemma NamesRoundTrip(c: Cursor, n: Names)
    requires NamesWellFormed(n)
    requires At(c, EncodeNames(n))
    ensures DecodeNames(c) == Ok((n, Cursor(c.buf, c.pos + NamesSize(n))))
  {
    hide ConsumeStringNull, FindNul, At, NulFree, DecodeNames;
    var e2, e3, e4 := EncodeCString(n.mapName), EncodeCString(n.gameDir), EncodeCString(n.gameDescription);
    CStringStep(c, n.hostname, e2 + (e3 + e4));
    var c1: Cursor := Cursor(c.buf, c.pos + |n.hostname| + 1);
    CStringStep(c1, n.mapName, e3 + e4);
    var c2: Cursor := Cursor(c.buf, c1.pos + |n.mapName| + 1);
    CStringStep(c2, n.gameDir, e4);
    var c3: Cursor := Cursor(c.buf, c2.pos + |n.gameDir| + 1);
    assert e4 + [] == e4;
    CStringStep(c3, n.gameDescription, []);
    var c4: Cursor := Cursor(c.buf, c3.pos + |n.gameDescription| + 1);
    DecodeNamesOf(c, c1, c2, c3, c4, n);
  }

  /** `DecodeNames` from its four reads. */
  lemma DecodeNamesOf(c: Cursor, c1: Cursor, c2: Cursor, c3: Cursor, c4: Cursor, n: Names)
    requires ConsumeStringNull(c) == Ok((n.hostname, c1))
    requires ConsumeStringNull(c1) == Ok((n.mapName, c2))
    requires ConsumeStringNull(c2) == Ok((n.gameDir, c3))
    requires ConsumeStringNull(c3) == Ok((n.gameDescription, c4))
    ensures DecodeNames(c) == Ok((n, c4))
  {
  }

  lemma NamesBytes(c: Cursor)
    requires DecodeNames(c).Ok?
    ensures At(c, EncodeNames(DecodeNames(c).value.0))
  {
    hide FindNul, At;
    var n := DecodeNames(c).value.0;
    var c1 := ConsumeStringNull(c).value.1;
    var c2 := ConsumeStringNull(c1).value.1;
    var c3 := ConsumeStringNull(c2).value.1;
    var c4 := ConsumeStringNull(c3).value.1;
    AtEmpty(c4);
    CStringJoin(c3, []);
    assert EncodeCString(n.gameDescription) + [] == EncodeCString(n.gameDescription);
    CStringJoin(c2, EncodeCString(n.gameDescription));
    CStringJoin(c1, EncodeCString(n.gameDir) + EncodeCString(n.gameDescription));
    CStringJoin(c, EncodeCString(n.mapName) + (EncodeCString(n.gameDir) + EncodeCString(n.gameDescription)));
  }

  lemma CountsRoundTrip(c: Cursor, k: Counts)
    requires CountsWellFormed(k)
    requires At(c, EncodeCounts(k))
    ensures DecodeCounts(c) == Ok((k, Cursor(c.buf, c.pos + COUNTS_SIZE)))
  {
    Pow256Widths();
    hide ConsumeUnsigned, At, EncodeInt;
    var e2, e3 := EncodeInt(k.playerCount, U8), EncodeInt(k.playerCap, U8);
    var e4, e5, e6 := EncodeInt(k.unknown1, U8), EncodeInt(k.unknown2, U8), EncodeInt(k.operatingSystem, U8);
    UnsignedStep(c, U16, k.steamAppId, e2 + (e3 + (e4 + (e5 + e6))));
    UnsignedStep(Cursor(c.buf, c.pos + 2), U8, k.playerCount, e3 + (e4 + (e5 + e6)));
    UnsignedStep(Cursor(c.buf, c.pos + 3), U8, k.playerCap, e4 + (e5 + e6));
    UnsignedStep(Cursor(c.buf, c.pos + 4), U8, k.unknown1, e5 + e6);
    UnsignedStep(Cursor(c.buf, c.pos + 5), U8, k.unknown2, e6);
    assert e6 + [] == e6;
    UnsignedStep(Cursor(c.buf, c.pos + 6), U8, k.operatingSystem, []);
  }

  lemma CountsBytes(c: Cursor)
    requires DecodeCounts(c).Ok?
    ensures At(c, EncodeCounts(DecodeCounts(c).value.0))
  {
    Pow256Widths();
    hide At;
    var k := DecodeCounts(c).value.0;
    var e2, e3 := EncodeInt(k.playerCount, U8), EncodeInt(k.playerCap, U8);
    var e4, e5, e6 := EncodeInt(k.unknown1, U8), EncodeInt(k.unknown2, U8), EncodeInt(k.operatingSystem, U8);
    AtEmpty(Cursor(c.buf, c.pos + 7));
    UnsignedJoin(Cursor(c.buf, c.pos + 6), U8, []);
    assert e6 + [] == e6;
    UnsignedJoin(Cursor(c.buf, c.pos + 5), U8, e6);
    UnsignedJoin(Cursor(c.buf, c.pos + 4), U8, e5 + e6);
    UnsignedJoin(Cursor(c.buf, c.pos + 3), U8, e4 + (e5 + e6));
    UnsignedJoin(Cursor(c.buf, c.pos + 2), U8, e3 + (e4 + (e5 + e6)));
    UnsignedJoin(c, U16, e2 + (e3 + (e4 + (e5 + e6))));
  }

  lemma UnknownsRoundTrip(c: Cursor, u: Unknowns)
    requires UnknownsWellFormed(u)
    requires At(c, EncodeUnknowns(u))
    ensures DecodeUnknowns(c) == Ok((u, Cursor(c.buf, c.pos + UNKNOWNS_SIZE)))
  {
    Pow256Widths();
    hide ConsumeUnsigned, At, EncodeInt;
    var e2, e3 := EncodeInt(u.unknown5, U32), EncodeInt(u.unknown6, U32);
    UnsignedStep(c, U32, u.unknown4, e2 + e3);
    UnsignedStep(Cursor(c.buf, c.pos + 4), U32, u.unknown5, e3);
    assert e3 + [] == e3;
    UnsignedStep(Cursor(c.buf, c.pos + 8), U32, u.unknown6, []);
  }

  lemma UnknownsBytes(c: Cursor)
    requires DecodeUnknowns(c).Ok?
    ensures At(c, EncodeUnknowns(DecodeUnknowns(c).value.0))
  {
    Pow256Widths();
    hide At;
    var u := DecodeUnknowns(c).value.0;
    var e2, e3 := EncodeInt(u.unknown5, U32), EncodeInt(u.unknown6, U32);
    AtEmpty(Cursor(c.buf, c.pos + 12));
    UnsignedJoin(Cursor(c.buf, c.pos + 8), U32, []);
    assert e3 + [] == e3;
    UnsignedJoin(Cursor(c.buf, c.pos + 4), U32, e3);
    UnsignedJoin(c, U32, e2 + e3);
  }

  /** The groups, each read off the front of its encoding followed by
      `rest`. */
  lemma NamesStep(c: Cursor, n: Names, rest: Bytes)
    requires NamesWellFormed(n)
    requires At(c, EncodeNames(n) + rest)
    ensures DecodeNames(c) == Ok((n, Cursor(c.buf, c.pos + NamesSize(n))))
    ensures At(Cursor(c.buf, c.pos + NamesSize(n)), rest)
  {
    hide At, DecodeNames, EncodeNames, ConsumeStringNull;
    AtSplit(c, EncodeNames(n), rest);
    NamesRoundTrip(c, n);
  }

  lemma CountsStep(c: Cursor, k: Counts, rest: Bytes)
    requires CountsWellFormed(k)
    requires At(c, EncodeCounts(k) + rest)
    ensures DecodeCounts(c) == Ok((k, Cursor(c.buf, c.pos + COUNTS_SIZE)))
    ensures At(Cursor(c.buf, c.pos + COUNTS_SIZE), rest)
  {
    hide At, DecodeCounts, EncodeCounts, ConsumeUnsigned;
    AtSplit(c, EncodeCounts(k), rest);
    CountsRoundTrip(c, k);
  }

  lemma UnknownsStep(c: Cursor, u: Unknowns, rest: Bytes)
    requires UnknownsWellFormed(u)
    requires At(c, EncodeUnknowns(u) + rest)
    ensures DecodeUnknowns(c) == Ok((u, Cursor(c.buf, c.pos + UNKNOWNS_SIZE)))
    ensures At(Cursor(c.buf, c.pos + UNKNOWNS_SIZE), rest)
  {
    hide At, DecodeUnknowns, EncodeUnknowns, ConsumeUnsigned;
    AtSplit(c, EncodeUnknowns(u), rest);
    UnknownsRoundTrip(c, u);
  }


  /** `ReadFront` from its four reads. */
  lemma ReadFrontOf(c: Cursor, c1: Cursor, c2: Cursor, c3: Cursor, c4: Cursor, f: Front)
    requires ConsumeUnsigned(c, U8) == Ok((f.protocol, c1))
    requires DecodeNames(c1) == Ok((f.names, c2))
    requires DecodeCounts(c2) == Ok((f.counts, c3))
    requires ConsumeBool(c3) == Ok((f.passwordSet, c4))
    ensures ReadFront(c) == Ok((f, c4))
  {
  }

  lemma FrontEncodingSplit(f: Front, flag: Bytes, rest: Bytes)
    ensures EncodeFront(f, flag) + rest == EncodeInt(f.protocol, U8) + (EncodeNames(f.names) + (EncodeCounts(f.counts) + (flag + rest)))
  {
  }

  /** Round trip for the first four reads, followed by `rest`: whatever
      non-zero byte stands for a set password, the fields come back and
      the reads stop where `rest` starts. */
  lemma FrontStep(c: Cursor, f: Front, flag: Bytes, rest: Bytes)
    requires FrontWellFormed(f) && FlagFor(flag, f.passwordSet)
    requires At(c, EncodeFront(f, flag) + rest)
    ensures ReadFront(c) == Ok((f, Cursor(c.buf, c.pos + FrontSize(f))))
    ensures At(Cursor(c.buf, c.pos + FrontSize(f)), rest)
  {
    hide At, ConsumeUnsigned, DecodeNames, DecodeCounts, ConsumeBool, ReadFront, EncodeFront, EncodeNames, EncodeCounts, EncodeInt, NulFree;
    Pow256Widths();
    FrontEncodingSplit(f, flag, rest);
    var e4 := flag + rest;
    var e3 := EncodeCounts(f.counts) + e4;
    var e2 := EncodeNames(f.names) + e3;
    UnsignedStep(c, U8, f.protocol, e2);
    var c1: Cursor := Cursor(c.buf, c.pos + U8);
    NamesStep(c1, f.names, e3);
    var c2: Cursor := Cursor(c.buf, c1.pos + NamesSize(f.names));
    CountsStep(c2, f.counts, e4);
    var c3: Cursor := Cursor(c.buf, c2.pos + COUNTS_SIZE);
    BoolStep(c3, flag, rest);
    var c4: Cursor := Cursor(c.buf, c3.pos + U8);
    ReadFrontOf(c, c1, c2, c3, c4, f);
  }

  /** `ReadBack` from its four reads. */
  lemma ReadBackOf(c: Cursor, c1: Cursor, c2: Cursor, c3: Cursor, c4: Cursor, b: Back)
    requires ConsumeUnsigned(c, U8) == Ok((b.unknown3, c1))
    requires ConsumeString(c1, VERSION_SIZE) == Ok((b.version, c2))
    requires DecodeUnknowns(c2) == Ok((b.unknowns, c3))
    requires ConsumeStringNull(c3) == Ok((b.additionalString, c4))
    ensures ReadBack(c) == Ok((b, c4))
  {
  }

  /** Round trip for the last four reads. */
  lemma BackRoundTrip(c: Cursor, b: Back)
    requires BackWellFormed(b)
    requires At(c, EncodeBack(b))
    ensures ReadBack(c) == Ok((b, Cursor(c.buf, c.pos + BackSize(b))))
  {
    hide At, ConsumeUnsigned, ConsumeString, DecodeUnknowns, ConsumeStringNull, ReadBack, EncodeUnknowns, EncodeInt, EncodeCString, FindNul, NulFree, NoTerminator;
    Pow256Widths();
    var e4 := EncodeCString(b.additionalString);
    var e3 := EncodeUnknowns(b.unknowns) + e4;
    var e2 := b.version + e3;
    UnsignedStep(c, U8, b.unknown3, e2);
    var c1: Cursor := Cursor(c.buf, c.pos + U8);
    StringStep(c1, b.version, e3);
    var c2: Cursor := Cursor(c.buf, c1.pos + VERSION_SIZE);
    UnknownsStep(c2, b.unknowns, e4);
    var c3: Cursor := Cursor(c.buf, c2.pos + UNKNOWNS_SIZE);
    assert e4 + [] == e4;
    CStringStep(c3, b.additionalString, []);
    var c4: Cursor := Cursor(c.buf, c3.pos + |b.additionalString| + 1);
    ReadBackOf(c, c1, c2, c3, c4, b);
  }

  /** The record the reads fill, before the scanner runs. */
  function Fields(d: Details): Details {
    d.(additional := map[], wavesTotal := 0, wavesCurrent := 0)
  }

  /** The encoding has the length the reads consume. */
  lemma DetailsLength(d: Details, flag: Bytes)
    requires WellFormed(d) && |flag| == 1
    ensures |EncodeDetailsWith(d, flag)| == DetailsSize(d)
  {
  }

  /** Round trip for the reads: a well-formed record is read back from its
      encoding, whatever non-zero byte stands for a set password, and
      exactly the encoding is consumed. */
  lemma ReadFieldsRoundTrip(c: Cursor, d: Details, flag: Bytes)
    requires WellFormed(d) && FlagFor(flag, d.passwordSet)
    requires At(c, EncodeDetailsWith(d, flag))
    ensures ReadFields(c) == Ok((Fields(d), Cursor(c.buf, c.pos + DetailsSize(d))))
  {
    hide At, ReadFront, ReadBack, EncodeFront, EncodeBack;
    var f, b := FrontOf(d), BackOf(d);
    FrontStep(c, f, flag, EncodeBack(b));
    var c4: Cursor := Cursor(c.buf, c.pos + FrontSize(f));
    BackRoundTrip(c4, b);
    assert Assemble(f, b) == Fields(d);
  }

  /** Round trip for the constructor: a well-formed record whose derived
      fields agree with its additional string is read back from its
      encoding, and exactly the encoding is consumed. */
  lemma DetailsRoundTrip(c: Cursor, d: Details, flag: Bytes)
    requires WellFormed(d) && Derived(d) && FlagFor(flag, d.passwordSet)
    requires At(c, EncodeDetailsWith(d, flag))
    ensures DecodeDetails(c) == Ok((d, Cursor(c.buf, c.pos + |EncodeDetailsWith(d, flag)|)))
  {
    hide At, ReadFields, EncodeDetailsWith, EncodeDetails, WaveCounter, Additional.Parse;
    DetailsLength(d, flag);
    ReadFieldsRoundTrip(c, d, flag);
  }
  /** The groups' other direction, each followed by `rest`. */
  lemma NamesJoin(c: Cursor, rest: Bytes)
    requires DecodeNames(c).Ok?
    requires At(DecodeNames(c).value.1, rest)
    ensures At(c, EncodeNames(DecodeNames(c).value.0) + rest)
  {
    hide At, DecodeNames, EncodeNames, ConsumeStringNull;
    NamesBytes(c);
    AtJoin(c, EncodeNames(DecodeNames(c).value.0), rest);
  }

  lemma CountsJoin(c: Cursor, rest: Bytes)
    requires DecodeCounts(c).Ok?
    requires At(DecodeCounts(c).value.1, rest)
    ensures At(c, EncodeCounts(DecodeCounts(c).value.0) + rest)
  {
    hide At, DecodeCounts, EncodeCounts, ConsumeUnsigned;
    CountsBytes(c);
    AtJoin(c, EncodeCounts(DecodeCounts(c).value.0), rest);
  }

  lemma UnknownsJoin(c: Cursor, rest: Bytes)
    requires DecodeUnknowns(c).Ok?
    requires At(DecodeUnknowns(c).value.1, rest)
    ensures At(c, EncodeUnknowns(DecodeUnknowns(c).value.0) + rest)
  {
    hide At, DecodeUnknowns, EncodeUnknowns, ConsumeUnsigned;
    UnknownsBytes(c);
    AtJoin(c, EncodeUnknowns(DecodeUnknowns(c).value.0), rest);
  }


  /** The other direction for the first four reads, followed by `rest`:
      they sat in the buffer as their encoding, with the byte read for
      `password_set` in its place. */
  lemma FrontJoin(c: Cursor, rest: Bytes)
    requires ReadFront(c).Ok?
    requires At(ReadFront(c).value.1, rest)
    ensures var f := ReadFront(c).value.0;
      && c.pos + PasswordOffset(f) < |c.buf|
      && FlagFor([c.buf[c.pos + PasswordOffset(f)]], f.passwordSet)
      && At(c, EncodeFront(f, [c.buf[c.pos + PasswordOffset(f)]]) + rest)
  {
    hide At, ConsumeUnsigned, DecodeNames, DecodeCounts, ConsumeBool, ReadFront, EncodeFront, EncodeNames, EncodeCounts, EncodeInt, NulFree;
    ReadFrontParts(c);
    var f := ReadFront(c).value.0;
    var c1 := ConsumeUnsigned(c, U8).value.1;
    var c2 := DecodeNames(c1).value.1;
    var c3 := DecodeCounts(c2).value.1;
    var flag := [c.buf[c3.pos]];
    BoolJoin(c3, rest);
    CountsJoin(c2, flag + rest);
    NamesJoin(c1, EncodeCounts(f.counts) + (flag + rest));
    UnsignedJoin(c, U8, EncodeNames(f.names) + (EncodeCounts(f.counts) + (flag + rest)));
    FrontEncodingSplit(f, flag, rest);
  }

  /** A successful `ReadFront` is its four reads, one after the other. */
  lemma ReadFrontParts(c: Cursor)
    requires ReadFront(c).Ok?
    ensures ConsumeUnsigned(c, U8).Ok?
    ensures var c1 := ConsumeUnsigned(c, U8).value.1;
      && DecodeNames(c1).Ok?
      && var c2 := DecodeNames(c1).value.1;
      && DecodeCounts(c2).Ok?
      && var c3 := DecodeCounts(c2).value.1;
      && ConsumeBool(c3).Ok?
      && ReadFront(c).value == (Front(ConsumeUnsigned(c, U8).value.0, DecodeNames(c1).value.0, DecodeCounts(c2).value.0,
           ConsumeBool(c3).value.0), ConsumeBool(c3).value.1)
  {
    hide ConsumeUnsigned, DecodeNames, DecodeCounts, ConsumeBool;
  }

  /** The other direction for the last four reads. */
  lemma BackBytes(c: Cursor)
    requires ReadBack(c).Ok?
    ensures At(c, EncodeBack(ReadBack(c).value.0))
  {
    Pow256Widths();
    var b := ReadBack(c).value.0;
    var c1 := ConsumeUnsigned(c, U8).value.1;
    var c2 := ConsumeString(c1, VERSION_SIZE).value.1;
    var c3 := DecodeUnknowns(c2).value.1;
    assert b.unknown3 == ConsumeUnsigned(c, U8).value.0;
    assert b.version == ConsumeString(c1, VERSION_SIZE).value.0;
    assert b.unknowns == DecodeUnknowns(c2).value.0;
    assert ConsumeStringNull(c3).Ok? && b.additionalString == ConsumeStringNull(c3).value.0;
    var c4 := ConsumeStringNull(c3).value.1;
    var e4 := EncodeCString(b.additionalString);
    var e3 := EncodeUnknowns(b.unknowns) + e4;
    hide At, ConsumeUnsigned, ConsumeString, DecodeUnknowns, ConsumeStringNull, ReadBack, EncodeBack, EncodeUnknowns, EncodeInt, EncodeCString, FindNul, NulFree;
    AtEmpty(c4);
    CStringJoin(c3, []);
    assert e4 + [] == e4;
    UnknownsJoin(c2, e4);
    StringJoin(c1, VERSION_SIZE, e3);
    UnsignedJoin(c, U8, b.version + e3);
  }

  /** The other direction for the reads: whatever record the reads return
      sat in the buffer as exactly its encoding, with the byte that was read
      for `password_set` in its place. */
  lemma ReadFieldsBytes(c: Cursor)
    requires ReadFields(c).Ok?
    ensures var d := ReadFields(c).value.0;
      && c.pos + PasswordOffset(FrontOf(d)) < |c.buf|
      && var flag := [c.buf[c.pos + PasswordOffset(FrontOf(d))]];
      && FlagFor(flag, d.passwordSet)
      && At(c, EncodeDetailsWith(d, flag))
  {
    hide At, ReadFront, ReadBack, ReadFields, EncodeFront, EncodeBack;
    ReadFieldsParts(c);
    var (f, c4) := ReadFront(c).value;
    var b := ReadBack(c4).value.0;
    var d := ReadFields(c).value.0;
    assert FrontOf(d) == f && BackOf(d) == b;
    BackBytes(c4);
    FrontJoin(c, EncodeBack(b));
  }

  /** A successful `ReadFields` is its two halves, one after the other. */
  lemma ReadFieldsParts(c: Cursor)
    requires ReadFields(c).Ok?
    ensures ReadFront(c).Ok? && ReadBack(ReadFront(c).value.1).Ok?
    ensures var (f, c4) := ReadFront(c).value;
      ReadFields(c) == Ok((Assemble(f, ReadBack(c4).value.0), ReadBack(c4).value.1))
  {
    hide ReadFront, ReadBack;
  }

  /** The encoding reads only the wire fields. */
  lemma EncodingIgnoresDerived(d: Details, e: Details, flag: Bytes)
    requires Fields(d) == Fields(e)
    ensures EncodeDetailsWith(d, flag) == EncodeDetailsWith(e, flag)
    ensures FrontOf(d) == FrontOf(e)
  {
    assert FrontOf(d) == FrontOf(Fields(d)) && FrontOf(e) == FrontOf(Fields(e));
    assert BackOf(d) == BackOf(Fields(d)) && BackOf(e) == BackOf(Fields(e));
  }

  /** The other direction for the constructor. */
  lemma DetailsBytes(c: Cursor)
    requires DecodeDetails(c).Ok?
    ensures var d := DecodeDetails(c).value.0;
      && c.pos + PasswordOffset(FrontOf(d)) < |c.buf|
      && var flag := [c.buf[c.pos + PasswordOffset(FrontOf(d))]];
      && FlagFor(flag, d.passwordSet)
      && At(c, EncodeDetailsWith(d, flag))
  {
    hide At, DecodeDetails, ReadFields, EncodeDetailsWith, ReadFront, ReadBack, WaveCounter, Additional.Parse;
    DecodeDetailsParts(c);
    var fields := ReadFields(c).value.0;
    var d := DecodeDetails(c).value.0;
    ReadFieldsBytes(c);
    EncodingIgnoresDerived(d, fields, [c.buf[c.pos + PasswordOffset(FrontOf(d))]]);
  }

  /** A successful `DecodeDetails` read the wire fields with `ReadFields`. */
  lemma DecodeDetailsParts(c: Cursor)
    requires DecodeDetails(c).Ok?
    ensures ReadFields(c).Ok? && Fields(DecodeDetails(c).value.0) == ReadFields(c).value.0
  {
    hide ReadFields, WaveCounter, Additional.Parse;
  }

  /** "d:3" and "e:1" as a server writes them. */
  const PAIR_D3: Bytes := [0x64, 0x3A, 0x33]
  const PAIR_E1: Bytes := [0x65, 0x3A, 0x31]

  /** "d:3,e:1," yields both pairs; in "d:3,e:1" the last pair has no
      closing ',' and is lost. */
  lemma AdditionalExamples()
    ensures Additional.Parse(PAIR_D3 + [Additional.COMMA] + PAIR_E1 + [Additional.COMMA]) == map[KEY_D := [0x33], KEY_E := [0x31]]
    ensures Additional.Parse(PAIR_D3 + [Additional.COMMA] + PAIR_E1) == map[KEY_D := [0x33]]
  {
    var first := PAIR_D3 + [Additional.COMMA];
    Additional.CommaCommitsPair([], PAIR_D3);
    assert [] + PAIR_D3 + [Additional.COMMA] == first;
    assert Additional.KeyOf(PAIR_D3) == KEY_D && Additional.ValueOf(PAIR_D3) == [0x33];
    Additional.CommaCommitsPair(first, PAIR_E1);
    assert Additional.KeyOf(PAIR_E1) == KEY_E && Additional.ValueOf(PAIR_E1) == [0x31];
    Additional.UnterminatedPairDropped(first, PAIR_E1);
  }

  /** With both pairs `waves_total` is 3 and `waves_current` is 1; with the
      "e" pair lost `waves_current` keeps its initializer 0. */
  lemma WaveExamples()
    ensures WaveCounter(map[KEY_D := [0x33], KEY_E := [0x31]], KEY_D) == Ok(3)
    ensures WaveCounter(map[KEY_D := [0x33], KEY_E := [0x31]], KEY_E) == Ok(1)
    ensures WaveCounter(map[KEY_D := [0x33]], KEY_E) == Ok(0)
  {
    StolOfDecimal(3, []);
    StolOfDecimal(1, []);
    assert Decimal(3) + [] == [0x33] && Decimal(1) + [] == [0x31];
  }
}

=== FILE: kfplayers.dfy ===
/** The player-list reply `kfplayers`: a one-byte count, then that many
    `kfplayer` entries, each an id byte, a C-string name and two 32-bit
    unsigned numbers (score and connection time). The wire fields of
    A2S_PLAYER are a signed score and a float duration; this client reads
    both as plain `std::uint32_t`, and so does the model. */
module KfPlayers {
  import opened Wrappers
  import opened Bytes
  import opened KfBuffer
  import opened Counted

  datatype Player = Player(id: int, name: Bytes, score: int, time: int)

  /** The roster with the count as it came off the wire. */
  datatype Players = Players(count: int, players: seq<Player>)

  /** Each field holds a value of its C++ type, and the name, read as a C
      string, has no NUL. */
  predicate WellFormed(p: Player) {
    0 <= p.id < 0x100 && NulFree(p.name) && 0 <= p.score < TwoTo32 && 0 <= p.time < TwoTo32
  }

  /** A roster that a server can send: at most 255 entries, as the count is a
      byte, the count agrees with the entries, and each entry is well-formed. */
  predicate ValidRoster(r: Players) {
    0 <= r.count < 0x100 && r.count == |r.players| && forall i :: 0 <= i < |r.players| ==> WellFormed(r.players[i])
  }

  /** The `kfplayer` constructor: id, name, score, time, in that order. */
  function DecodePlayer(c: Cursor): (r: Result<(Player, Cursor)>)
    ensures r.Err? ==> r.error == OutsideBuffer
    ensures r.Ok? ==> WellFormed(r.value.0)
    ensures r.Ok? ==> r.value.1 == Cursor(c.buf, c.pos + PlayerSize(r.value.0))
  {
    var (id, c1) :- ConsumeUnsigned(c, U8);
    var (name, c2) :- ConsumeStringNull(c1);
    var (score, c3) :- ConsumeUnsigned(c2, U32);
    var (time, c4) :- ConsumeUnsigned(c3, U32);
    Ok((Player(id, name, score, time), c4))
  }

  /** The number of bytes one entry occupies. */
  function PlayerSize(p: Player): nat {
    U8 + |p.name| + 1 + U32 + U32
  }

  /** The bytes a server sends for one entry. */
  function EncodePlayer(p: Player): (bs: Bytes)
    ensures |bs| == PlayerSize(p)
  {
    EncodeInt(p.id, U8) + EncodeCString(p.name) + EncodeInt(p.score, U32) + EncodeInt(p.time, U32)
  }

  /** Round trip for one entry: a well-formed entry is read back from its
      encoding, and exactly the encoding is consumed. */
  lemma PlayerRoundTrip(c: Cursor, p: Player)
    requires WellFormed(p)
    requires At(c, EncodePlayer(p))
    ensures DecodePlayer(c) == Ok((p, Cursor(c.buf, c.pos + |EncodePlayer(p)|)))
  {
    Pow256Widths();
    var e1, e2, e3, e4 := EncodeInt(p.id, U8), EncodeCString(p.name), EncodeInt(p.score, U32), EncodeInt(p.time, U32);
    var c1: Cursor := Cursor(c.buf, c.pos + |e1|);
    var c2: Cursor := Cursor(c.buf, c1.pos + |e2|);
    var c3: Cursor := Cursor(c.buf, c2.pos + |e3|);
    AtSplit(c, e1 + e2 + e3, e4);
    AtSplit(c, e1 + e2, e3);
    AtSplit(c, e1, e2);
    ConsumeUnsignedEncoded(c, U8, p.id);
    ConsumeCStringEncoded(c1, p.name);
    ConsumeUnsignedEncoded(c2, U32, p.score);
    ConsumeUnsignedEncoded(c3, U32, p.time);
  }

  /** The other direction: every entry the decoder accepts sat in the buffer
      as exactly the encoding of what it returned. */
  lemma PlayerBytes(c: Cursor)
    requires DecodePlayer(c).Ok?
    ensures At(c, EncodePlayer(DecodePlayer(c).value.0))
  {
    Pow256Widths();
    var p := DecodePlayer(c).value.0;
    var c1 := ConsumeUnsigned(c, U8).value.1;
    var c2 := ConsumeStringNull(c1).value.1;
    var c3 := ConsumeUnsigned(c2, U32).value.1;
    ConsumeUnsignedBytes(c, U8);
    ConsumeStringNullBytes(c1);
    ConsumeUnsignedBytes(c2, U32);
    ConsumeUnsignedBytes(c3, U32);
    AtJoin(c, EncodeInt(p.id, U8), EncodeCString(p.name));
    AtJoin(c, EncodeInt(p.id, U8) + EncodeCString(p.name), EncodeInt(p.score, U32));
    AtJoin(c, EncodeInt(p.id, U8) + EncodeCString(p.name) + EncodeInt(p.score, U32), EncodeInt(p.time, U32));
  }

  /** The `kfplayers` constructor: the count byte, then exactly that many
      entries in wire order, each from where the previous one stopped. */
  function DecodePlayers(c: Cursor): (r: Result<(Players, Cursor)>)
    ensures r.Ok? ==> ValidRoster(r.value.0)
    ensures r.Err? ==> r.error == OutsideBuffer
  {
    var (count, next) :- ConsumeUnsigned(c, U8);
    RepeatKeeps(next, count, DecodePlayer, WellFormed);
    RepeatFailsWith(next, count, DecodePlayer, OutsideBuffer);
    var (players, end) :- Repeat(next, count, DecodePlayer);
    Ok((Players(count, players), end))
  }

  /** The bytes a server sends for a roster: the count byte, then every entry. */
  function EncodePlayers(r: Players): Bytes {
    EncodeInt(r.count, U8) + Concat(r.players, EncodePlayer)
  }
}

/** Round trips for the roster, in both directions. */
module KfPlayersProofs {
  import opened Wrappers
  import opened Bytes
  import opened KfBuffer
  import opened Counted
  import opened KfPlayers

  /** Round trip for the roster: the count and every entry come back in
      order, and exactly the encoding is consumed. */
  lemma PlayersRoundTrip(c: Cursor, r: Players)
    requires ValidRoster(r)
    requires At(c, EncodePlayers(r))
    ensures DecodePlayers(c) == Ok((r, Cursor(c.buf, c.pos + |EncodePlayers(r)|)))
  {
    hide DecodePlayer, DecodePlayers, At, Repeat, Concat, EncodePlayer, EncodePlayers, EncodeInt, ConsumeUnsigned;
    CountRoundTrip(c, r);
    var n := |r.players|;
    var next: Cursor := Cursor(c.buf, c.pos + U8);
    var end: Cursor := Cursor(c.buf, next.pos + |Concat(r.players, EncodePlayer)|);
    EntriesRoundTrip(next, r.players);
    assert end == Cursor(c.buf, c.pos + |EncodePlayers(r)|);
    DecodePlayersOf(c, n, next, r.players, end);
    assert Players(n, r.players) == r;
  }

  /** The count byte reads back, and the entries sit right after it. */
  lemma CountRoundTrip(c: Cursor, r: Players)
    requires ValidRoster(r)
    requires At(c, EncodePlayers(r))
    ensures |EncodePlayers(r)| == U8 + |Concat(r.players, EncodePlayer)| <= |c.buf| - c.pos
    ensures ConsumeUnsigned(c, U8) == Ok((|r.players|, Cursor(c.buf, c.pos + U8)))
    ensures At(Cursor(c.buf, c.pos + U8), Concat(r.players, EncodePlayer))
  {
    Pow256Widths();
    AtSplit(c, EncodeInt(r.count, U8), Concat(r.players, EncodePlayer));
    ConsumeUnsignedEncoded(c, U8, r.count);
  }

  /** Round trip for the entries alone. */
  lemma EntriesRoundTrip(c: Cursor, players: seq<Player>)
    requires forall i :: 0 <= i < |players| ==> WellFormed(players[i])
    requires At(c, Concat(players, EncodePlayer))
    ensures Repeat(c, |players|, DecodePlayer) == Ok((players, Cursor(c.buf, c.pos + |Concat(players, EncodePlayer)|)))
  {
    hide *;
    EveryPlayerReadsBack(players);
    RepeatEncoded(c, players, DecodePlayer, EncodePlayer);
  }

  lemma EveryPlayerReadsBack(players: seq<Player>)
    requires forall i :: 0 <= i < |players| ==> WellFormed(players[i])
    ensures forall i :: 0 <= i < |players| ==> ReadsBack(DecodePlayer, EncodePlayer, players[i])
  {
    forall i | 0 <= i < |players| {
      PlayerReadsBack(players[i]);
    }
  }

  /** `DecodePlayers` from its two steps. */
  lemma DecodePlayersOf(c: Cursor, count: nat, next: Cursor, players: seq<Player>, end: Cursor)
    requires ConsumeUnsigned(c, U8) == Ok((count, next))
    requires Repeat(next, count, DecodePlayer) == Ok((players, end))
    ensures DecodePlayers(c) == Ok((Players(count, players), end))
  {
  }

  /** `PlayerRoundTrip` for every cursor at once. */
  lemma PlayerReadsBack(p: Player)
    requires WellFormed(p)
    ensures ReadsBack(DecodePlayer, EncodePlayer, p)
  {
    hide DecodePlayer, EncodePlayer, At;
    forall d: Cursor {:trigger At(d, EncodePlayer(p))} | At(d, EncodePlayer(p)) {
      PlayerRoundTrip(d, p);
    }
  }

  /** The other direction for the roster: whatever the decoder accepts is
      exactly the encoding of the roster it returned, and nothing past it
      is consumed. */
  lemma PlayersBytes(c: Cursor)
    requires DecodePlayers(c).Ok?
    ensures At(c, EncodePlayers(DecodePlayers(c).value.0))
    ensures DecodePlayers(c).value.1 == Cursor(c.buf, c.pos + |EncodePlayers(DecodePlayers(c).value.0)|)
  {
    Pow256Widths();
    var r := DecodePlayers(c).value.0;
    var next: Cursor := Cursor(c.buf, c.pos + U8);
    ConsumeUnsignedBytes(c, U8);
    forall d: Cursor {:trigger DecodePlayer(d)} | DecodePlayer(d).Ok?
      ensures At(d, EncodePlayer(DecodePlayer(d).value.0))
    {
      PlayerBytes(d);
    }
    RepeatCanonical(next, r.count, DecodePlayer, EncodePlayer);
    AtJoin(c, EncodeInt(r.count, U8), Concat(r.players, EncodePlayer));
  }

  /** A count byte of 0 gives the empty roster and moves past that byte
      alone; whatever follows is not read. */
  lemma EmptyRoster(c: Cursor)
    requires c.pos < |c.buf| && c.buf[c.pos] == 0
    ensures DecodePlayers(c) == Ok((Players(0, []), Cursor(c.buf, c.pos + 1)))
  {
    assert c.buf[c.pos..c.pos + 1] == [0];
  }
}

=== FILE: kfrules.dfy ===
/** The rules reply `kfrules`: a 16-bit count, then that many `kfrule`
    entries, each a name and a raw value read as two C strings. The raw value
    is classified once: exactly "True" or "False" is a boolean, text that
    `strtod` converts completely (and not to `HUGE_VAL`) is a number, and
    anything else stays text. `strtod` is a parameter of the decoder; the
    number keeps its text, as the floating-point value is not modelled. */
module KfRules {
  import opened Wrappers
  import opened Bytes
  import opened KfBuffer
  import opened Conversions
  import opened Counted

  /** `std::variant<std::string, bool, double>`; the double is represented
      by the text it was converted from. */
  datatype RuleValue = StringValue(s: Bytes) | BoolValue(b: bool) | DoubleValue(text: Bytes)

  datatype Rule = Rule(name: Bytes, value: RuleValue)

  datatype Rules = Rules(count: int, rules: seq<Rule>)

  /** What `strtod` reports about a string. */
  type StrtodFn = Bytes -> Strtod

  const TRUE: Bytes := [0x54, 0x72, 0x75, 0x65]          // "True"
  const FALSE: Bytes := [0x46, 0x61, 0x6C, 0x73, 0x65]   // "False"

  /** `strtod` stopped after at least one byte, at the terminating NUL (all
      of `raw` was converted), and the result was not `HUGE_VAL`. */
  predicate Numeric(raw: Bytes, scan: Strtod) {
    scan.consumed != 0 && scan.consumed == |raw| && !scan.huge
  }

  /** The text a value was classified from. */
  function RawText(v: RuleValue): Bytes {
    match v
    case StringValue(s) => s
    case BoolValue(b) => if b then TRUE else FALSE
    case DoubleValue(t) => t
  }

  /** `v` is the value its own text classifies as: a boolean always, a number
      when its text is neither keyword and `strtod` accepts all of it, a string
      when its text is neither keyword and `strtod` does not. */
  predicate Classified(v: RuleValue, scan: Strtod) {
    match v
    case BoolValue(_) => true
    case DoubleValue(t) => t != TRUE && t != FALSE && Numeric(t, scan)
    case StringValue(s) => s != TRUE && s != FALSE && !Numeric(s, scan)
  }

  /** The classification in `kfrule`'s constructor; `scan` is what `strtod`
      reported for `raw`. Exactly one branch assigns the value. */
  function Classify(raw: Bytes, scan: Strtod): (v: RuleValue)
    ensures RawText(v) == raw
    ensures Classified(v, scan)
    ensures |raw| == 0 ==> v == StringValue([])
  {
    if raw == TRUE || raw == FALSE then BoolValue(raw == TRUE)
    else if Numeric(raw, scan) then DoubleValue(raw)
    else StringValue(raw)
  }

  /** A value is determined by its text and how it classifies: `Classify`
      recovers any classified value from its text. */
  lemma ClassifyInverse(v: RuleValue, scan: Strtod)
    requires Classified(v, scan)
    ensures Classify(RawText(v), scan) == v
  {
    assert TRUE != FALSE by { assert TRUE[0] != FALSE[0]; }
  }

  /** The two C strings of a `kfrule` as read, before the value is classified. */
  datatype Entry = Entry(name: Bytes, raw: Bytes)

  /** The reads of the `kfrule` constructor: the name, then the raw value,
      both with `consume_string_null`. */
  function DecodeEntry(c: Cursor): (r: Result<(Entry, Cursor)>)
    ensures r.Err? ==> r.error == OutsideBuffer
    ensures r.Ok? ==> NulFree(r.value.0.name) && NulFree(r.value.0.raw)
    ensures r.Ok? ==> r.value.1 == Cursor(c.buf, c.pos + |EncodeEntry(r.value.0)|)
  {
    var (name, c1) :- ConsumeStringNull(c);
    var (raw, c2) :- ConsumeStringNull(c1);
    Ok((Entry(name, raw), c2))
  }

  /** The bytes a server sends for one entry: two C strings. */
  function EncodeEntry(e: Entry): (bs: Bytes)
    ensures |bs| == |e.name| + 1 + |e.raw| + 1
  {
    EncodeCString(e.name) + EncodeCString(e.raw)
  }

  /** The classification step of the `kfrule` constructor. */
  function ToRule(e: Entry, strtod: StrtodFn): Rule {
    Rule(e.name, Classify(e.raw, strtod(e.raw)))
  }

  /** The `kfrule` constructor: both reads, then the classification. */
  function DecodeRule(c: Cursor, strtod: StrtodFn): (r: Result<(Rule, Cursor)>)
    ensures r.Err? ==> r.error == OutsideBuffer
    ensures r.Ok? ==> WellFormed(r.value.0, strtod)
    ensures r.Ok? ==> r.value.1 == Cursor(c.buf, c.pos + |EncodeRule(r.value.0)|)
  {
    var (e, next) :- DecodeEntry(c);
    Ok((ToRule(e, strtod), next))
  }

  /** A rule a server can send: NUL-free name and text, and a value that is
      what its text classifies as under `strtod`. */
  predicate WellFormed(rule: Rule, strtod: StrtodFn) {
    && NulFree(rule.name)
    && NulFree(RawText(rule.value))
    && Classified(rule.value, strtod(RawText(rule.value)))
  }

  /** The strings a server sends for a rule. */
  function EntryOf(rule: Rule): Entry {
    Entry(rule.name, RawText(rule.value))
  }

  /** The bytes a server sends for one rule. */
  function EncodeRule(rule: Rule): Bytes {
    EncodeEntry(EntryOf(rule))
  }

  /** Every entry classified, in order. */
  function ClassifyAll(es: seq<Entry>, strtod: StrtodFn): (rules: seq<Rule>)
    ensures |rules| == |es|
    ensures forall i :: 0 <= i < |es| ==> rules[i] == ToRule(es[i], strtod)
  {
    seq(|es|, i requires 0 <= i < |es| => ToRule(es[i], strtod))
  }

  /** `count` rules in wire order, each from where the previous one stopped;
      a rule that throws ends the list. */
  function RuleList(c: Cursor, count: nat, strtod: StrtodFn): (r: Result<(seq<Rule>, Cursor)>)
    ensures r.Ok? ==> |r.value.0| == count
    ensures r.Err? ==> r.error == OutsideBuffer
    ensures r.Ok? ==> forall i :: 0 <= i < |r.value.0| ==> WellFormed(r.value.0[i], strtod)
  {
    RepeatFailsWith(c, count, DecodeEntry, OutsideBuffer);
    var (es, end) :- Repeat(c, count, DecodeEntry);
    assert forall i :: 0 <= i < |es| ==> ClassifyAll(es, strtod)[i] == ToRule(es[i], strtod);
    RepeatKeeps(c, count, DecodeEntry, (e: Entry) => NulFree(e.name) && NulFree(e.raw));
    Ok((ClassifyAll(es, strtod), end))
  }

  /** The `kfrules` constructor: the 16-bit count, then exactly that many
      rules; a rule that throws ends the decode with no rule set. */
  function DecodeRules(c: Cursor, strtod: StrtodFn): (r: Result<(Rules, Cursor)>)
    ensures r.Ok? ==> ValidRules(r.value.0, strtod)
    ensures r.Err? ==> r.error == OutsideBuffer
  {
    Pow256Widths();
    var (count, next) :- ConsumeUnsigned(c, U16);
    var (rules, end) :- RuleList(next, count, strtod);
    Ok((Rules(count, rules), end))
  }

  /** A rule set a server can send: the count fits `std::uint16_t` and agrees
      with the rules, and every rule is well-formed. */
  predicate ValidRules(r: Rules, strtod: StrtodFn) {
    0 <= r.count < 0x1_0000 && r.count == |r.rules| && forall i :: 0 <= i < |r.rules| ==> WellFormed(r.rules[i], strtod)
  }

  /** The strings a server sends for every rule. */
  function EntriesOf(rules: seq<Rule>): (es: seq<Entry>)
    ensures |es| == |rules|
    ensures forall i :: 0 <= i < |rules| ==> es[i] == EntryOf(rules[i])
  {
    seq(|rules|, i requires 0 <= i < |rules| => EntryOf(rules[i]))
  }

  /** The bytes a server sends for a rule set: the count, then every rule. */
  function EncodeRules(r: Rules): Bytes {
    EncodeInt(r.count, U16) + Concat(EntriesOf(r.rules), EncodeEntry)
  }
}

/** Round trips for the rules reply, in both directions, and the per-rule
    view of the list. */
module KfRulesProofs {
  import opened Wrappers
  import opened Bytes
  import opened KfBuffer
  import opened Conversions
  import opened Counted
  import opened KfRules

  /** Round trip for one entry: both strings are read back and exactly the
      encoding is consumed. */
  lemma EntryRoundTrip(c: Cursor, e: Entry)
    requires NulFree(e.name) && NulFree(e.raw)
    requires At(c, EncodeEntry(e))
    ensures DecodeEntry(c) == Ok((e, Cursor(c.buf, c.pos + |EncodeEntry(e)|)))
  {
    hide ConsumeStringNull, At, FindNul;
    AtSplit(c, EncodeCString(e.name), EncodeCString(e.raw));
    ConsumeCStringEncoded(c, e.name);
    ConsumeCStringEncoded(Cursor(c.buf, c.pos + |e.name| + 1), e.raw);
  }

  /** The other direction for one entry: whatever entry is read sat in the
      buffer as exactly its encoding. */
  lemma EntryBytes(c: Cursor)
    requires DecodeEntry(c).Ok?
    ensures At(c, EncodeEntry(DecodeEntry(c).value.0))
  {
    var c1 := ConsumeStringNull(c).value.1;
    ConsumeStringNullBytes(c);
    ConsumeStringNullBytes(c1);
    var e := DecodeEntry(c).value.0;
    AtJoin(c, EncodeCString(e.name), EncodeCString(e.raw));
  }

  /** The converse for one rule: a decoded rule sat in the buffer as exactly
      its encoding. */
  lemma RuleBytes(c: Cursor, strtod: StrtodFn)
    requires DecodeRule(c, strtod).Ok?
    ensures At(c, EncodeRule(DecodeRule(c, strtod).value.0))
  {
    EntryBytes(c);
  }

  /** Round trip for one rule: the name and value are read back and exactly
      the encoding is consumed. */
  lemma RuleRoundTrip(c: Cursor, rule: Rule, strtod: StrtodFn)
    requires WellFormed(rule, strtod)
    requires At(c, EncodeRule(rule))
    ensures DecodeRule(c, strtod) == Ok((rule, Cursor(c.buf, c.pos + |EncodeRule(rule)|)))
  {
    EntryRoundTrip(c, EntryOf(rule));
    ClassifyInverse(rule.value, strtod(RawText(rule.value)));
  }

  /** The list is the `kfrule` constructor applied again and again: the first
      rule is the one `DecodeRule` reads, and the rest is read from where it
      stopped. */
  lemma RuleListCons(c: Cursor, count: nat, strtod: StrtodFn)
    requires count > 0
    ensures RuleList(c, count, strtod) ==
      match DecodeRule(c, strtod)
      case Err(e) => Err(e)
      case Ok((x, next)) =>
        match RuleList(next, count - 1, strtod)
        case Err(e) => Err(e)
        case Ok((rest, end)) => Ok(([x] + rest, end))
  {
    hide DecodeEntry, At, ConsumeStringNull;
    match DecodeEntry(c)
    case Err(_) =>
    case Ok((e, next)) =>
      RepeatCons(c, count, DecodeEntry, e, next);
      match Repeat(next, count - 1, DecodeEntry)
      case Err(_) =>
      case Ok((es, end)) =>
        assert ClassifyAll([e] + es, strtod) == [ToRule(e, strtod)] + ClassifyAll(es, strtod);
  }

  /** `EntryRoundTrip` for every cursor at once. */
  lemma EntryReadsBack(e: Entry)
    requires NulFree(e.name) && NulFree(e.raw)
    ensures ReadsBack(DecodeEntry, EncodeEntry, e)
  {
    hide DecodeEntry, EncodeEntry, At;
    forall d: Cursor {:trigger At(d, EncodeEntry(e))} | At(d, EncodeEntry(e)) {
      EntryRoundTrip(d, e);
    }
  }

  lemma EveryEntryReadsBack(rules: seq<Rule>, strtod: StrtodFn)
    requires forall i :: 0 <= i < |rules| ==> WellFormed(rules[i], strtod)
    ensures forall i :: 0 <= i < |rules| ==> ReadsBack(DecodeEntry, EncodeEntry, EntriesOf(rules)[i])
  {
    forall i | 0 <= i < |rules| {
      EntryReadsBack(EntriesOf(rules)[i]);
    }
  }

  /** Classifying the texts of well-formed rules gives the rules back. */
  lemma ClassifyEntries(rules: seq<Rule>, strtod: StrtodFn)
    requires forall i :: 0 <= i < |rules| ==> WellFormed(rules[i], strtod)
    ensures ClassifyAll(EntriesOf(rules), strtod) == rules
  {
    forall i | 0 <= i < |rules|
      ensures ToRule(EntriesOf(rules)[i], strtod) == rules[i]
    {
      ClassifyInverse(rules[i].value, strtod(RawText(rules[i].value)));
    }
  }

  /** Round trip for the rules alone. */
  lemma RuleListRoundTrip(c: Cursor, rules: seq<Rule>, strtod: StrtodFn)
    requires forall i :: 0 <= i < |rules| ==> WellFormed(rules[i], strtod)
    requires At(c, Concat(EntriesOf(rules), EncodeEntry))
    ensures RuleList(c, |rules|, strtod) == Ok((rules, Cursor(c.buf, c.pos + |Concat(EntriesOf(rules), EncodeEntry)|)))
  {
    hide DecodeEntry, EncodeEntry, At, Concat, ClassifyAll, EntriesOf;
    var es := EntriesOf(rules);
    EveryEntryReadsBack(rules, strtod);
    RepeatEncoded(c, es, DecodeEntry, EncodeEntry);
    ClassifyEntries(rules, strtod);
  }

  /** The count reads back, and the rules sit right after it. */
  lemma CountRoundTrip(c: Cursor, r: Rules, strtod: StrtodFn)
    requires ValidRules(r, strtod)
    requires At(c, EncodeRules(r))
    ensures |EncodeRules(r)| == U16 + |Concat(EntriesOf(r.rules), EncodeEntry)| <= |c.buf| - c.pos
    ensures ConsumeUnsigned(c, U16) == Ok((|r.rules|, Cursor(c.buf, c.pos + U16)))
    ensures At(Cursor(c.buf, c.pos + U16), Concat(EntriesOf(r.rules), EncodeEntry))
  {
    Pow256Widths();
    AtSplit(c, EncodeInt(r.count, U16), Concat(EntriesOf(r.rules), EncodeEntry));
    ConsumeUnsignedEncoded(c, U16, r.count);
  }

  /** `DecodeRules` from its two steps. */
  lemma DecodeRulesOf(c: Cursor, strtod: StrtodFn, count: nat, next: Cursor, rules: seq<Rule>, end: Cursor)
    requires ConsumeUnsigned(c, U16) == Ok((count, next))
    requires RuleList(next, count, strtod) == Ok((rules, end))
    ensures DecodeRules(c, strtod) == Ok((Rules(count, rules), end))
  {
  }

  /** Round trip for the rule set: the count and every rule come back in
      order, and exactly the encoding is consumed. */
  lemma RulesRoundTrip(c: Cursor, r: Rules, strtod: StrtodFn)
    requires ValidRules(r, strtod)
    requires At(c, EncodeRules(r))
    ensures DecodeRules(c, strtod) == Ok((r, Cursor(c.buf, c.pos + |EncodeRules(r)|)))
  {
    hide DecodeEntry, DecodeRules, RuleList, At, Repeat, Concat, EncodeEntry, EncodeRules, EncodeInt, ConsumeUnsigned;
    CountRoundTrip(c, r, strtod);
    var n := |r.rules|;
    var next: Cursor := Cursor(c.buf, c.pos + U16);
    var end: Cursor := Cursor(c.buf, next.pos + |Concat(EntriesOf(r.rules), EncodeEntry)|);
    RuleListRoundTrip(next, r.rules, strtod);
    assert end == Cursor(c.buf, c.pos + |EncodeRules(r)|);
    DecodeRulesOf(c, strtod, n, next, r.rules, end);
    assert Rules(n, r.rules) == r;
  }

  /** The texts of classified entries are the entries. */
  lemma EntriesOfClassified(es: seq<Entry>, strtod: StrtodFn)
    ensures EntriesOf(ClassifyAll(es, strtod)) == es
  {
  }

  /** The other direction for the rule set: whatever the decoder accepts is
      exactly the encoding of the rule set it returned, and nothing past it
      is consumed. */
  lemma RulesBytes(c: Cursor, strtod: StrtodFn)
    requires DecodeRules(c, strtod).Ok?
    ensures At(c, EncodeRules(DecodeRules(c, strtod).value.0))
    ensures DecodeRules(c, strtod).value.1 == Cursor(c.buf, c.pos + |EncodeRules(DecodeRules(c, strtod).value.0)|)
  {
    Pow256Widths();
    var r := DecodeRules(c, strtod).value.0;
    var next: Cursor := Cursor(c.buf, c.pos + U16);
    ConsumeUnsignedBytes(c, U16);
    forall d: Cursor {:trigger DecodeEntry(d)} | DecodeEntry(d).Ok?
      ensures At(d, EncodeEntry(DecodeEntry(d).value.0))
    {
      EntryBytes(d);
    }
    RepeatCanonical(next, r.count, DecodeEntry, EncodeEntry);
    EntriesOfClassified(Repeat(next, r.count, DecodeEntry).value.0, strtod);
    AtJoin(c, EncodeInt(r.count, U16), Concat(EntriesOf(r.rules), EncodeEntry));
  }

  const TWELVE_AND_A_HALF: Bytes := [0x31, 0x32, 0x2E, 0x35]   // "12.5"
  const DOUBLE_O_SEVEN: Bytes := [0x30, 0x30, 0x37]           // "007"
  const TWELVE_ABC: Bytes := [0x31, 0x32, 0x61, 0x62, 0x63]   // "12abc"
  const ABC: Bytes := [0x61, 0x62, 0x63]                      // "abc"

  /** With the decimal reading of `strtod`, "12.5" is converted whole and
      becomes a number. */
  lemma FractionIsNumber()
    ensures Classify(TWELVE_AND_A_HALF, DecimalStrtod(TWELVE_AND_A_HALF)) == DoubleValue(TWELVE_AND_A_HALF)
  {
    assert SkipSpaces(TWELVE_AND_A_HALF, 0) == 0 && SignEnd(TWELVE_AND_A_HALF) == 0;
    assert DigitsEnd(TWELVE_AND_A_HALF, 4) == 4 && DigitsEnd(TWELVE_AND_A_HALF, 3) == 4;
    assert DigitsEnd(TWELVE_AND_A_HALF, 2) == 2 && DigitsEnd(TWELVE_AND_A_HALF, 1) == 2 && DigitsEnd(TWELVE_AND_A_HALF, 0) == 2;
    assert DecimalStrtod(TWELVE_AND_A_HALF).consumed == 4;
    assert TWELVE_AND_A_HALF != TRUE && TWELVE_AND_A_HALF != FALSE;
  }

  /** Leading zeros are digits like any other: "007" is a number. */
  lemma LeadingZerosAreNumber()
    ensures Classify(DOUBLE_O_SEVEN, DecimalStrtod(DOUBLE_O_SEVEN)) == DoubleValue(DOUBLE_O_SEVEN)
  {
    assert SkipSpaces(DOUBLE_O_SEVEN, 0) == 0 && SignEnd(DOUBLE_O_SEVEN) == 0;
    assert DigitsEnd(DOUBLE_O_SEVEN, 3) == 3 && DigitsEnd(DOUBLE_O_SEVEN, 2) == 3;
    assert DigitsEnd(DOUBLE_O_SEVEN, 1) == 3 && DigitsEnd(DOUBLE_O_SEVEN, 0) == 3;
    assert DecimalStrtod(DOUBLE_O_SEVEN).consumed == 3;
    assert DOUBLE_O_SEVEN != TRUE && DOUBLE_O_SEVEN != FALSE;
  }

  /** "12abc" is converted only in part, so it stays text. */
  lemma NumericPrefixIsText()
    ensures Classify(TWELVE_ABC, DecimalStrtod(TWELVE_ABC)) == StringValue(TWELVE_ABC)
  {
    assert SkipSpaces(TWELVE_ABC, 0) == 0 && SignEnd(TWELVE_ABC) == 0;
    assert DigitsEnd(TWELVE_ABC, 2) == 2 && DigitsEnd(TWELVE_ABC, 1) == 2 && DigitsEnd(TWELVE_ABC, 0) == 2;
    assert DecimalStrtod(TWELVE_ABC).consumed == 2;
    assert TWELVE_ABC != TRUE && TWELVE_ABC != FALSE;
  }

  /** "abc" is not converted at all, so it stays text. */
  lemma WordIsText()
    ensures Classify(ABC, DecimalStrtod(ABC)) == StringValue(ABC)
  {
    assert SkipSpaces(ABC, 0) == 0 && SignEnd(ABC) == 0 && DigitsEnd(ABC, 0) == 0;
    assert DecimalStrtod(ABC).consumed == 0;
    assert ABC != TRUE && ABC != FALSE;
  }
}

=== FILE: wrappers.dfy ===
/** Failure-compatible result types shared by every decoder, and the error
    kinds the client's exceptions carry. */
module Wrappers {

  datatype Option<+T> = None | Some(value: T)

  /** The outcome of an operation that may throw: `Ok` is normal return,
      `Err` is the exception that escaped. */
  datatype Result<+T> = Ok(value: T) | Err(error: Error) {

    predicate IsFailure() {
      Err?
    }

    function PropagateFailure<U>(): Result<U>
      requires Err?
    {
      Err(error)
    }

    function Extract(): T
      requires Ok?
    {
      value
    }
  }

  /** The exceptions the core throws, one constructor per distinct cause. */
  datatype Error =
    | OutsideBuffer         // std::range_error from the cursor (seek, consume, missing NUL)
    | InvalidArgument       // std::invalid_argument from std::stol: no digits
    | OutOfRange            // std::out_of_range from std::stol: does not fit a long
    | BadMagic              // "unexpected header magic received"
    | UnexpectedPacket      // "unexpected packet received"
    | UnexpectedType        // "unexpected result type received"
    | NotProcessed          // "request_* failed, received response could not be processed"
    | Transport             // a socket send or receive reported an error
}
